=== FILE: README.md ===
# MassTransitCommVisualizer message-flow engine in Dafny

MassTransitCommVisualizer finds the classes of a .NET solution that publish,
send or respond with MassTransit messages and the classes that consume them.
It joins them into a message-flow graph, can narrow that graph to what is
reachable from one handler, and renders module-clustered Graphviz DOT text.
This project models that engine and proves its properties. The engine has
five parts.

- **Identity** (`identity.dfy`): the name-keyed `Equals`, `GetHashCode` and
  comparers of the handler and message classes, and the component-wise
  equality and `unchecked` 32-bit hash of `EdgeDefinition`.
- **List and dictionary helpers** (`extension_methods.dfy`, `dictionaries.dfy`,
  `module_names.dfy`):
  - `AddIfNotExist` and `AddRangeIfNotExist`, plus LINQ `Distinct` and `Union`.
  - .NET dictionaries as association lists in enumeration order.
  - `GetModuleName`, which keeps the first three dot-separated segments of a name.
- **Graph building** (`graph.dfy`, `converter.dfy`):
  - `MergeDictionaries` folds the four producer maps into one map, and the two
    consumer maps into another.
  - `ConvertToGraph` joins the two maps on message names.
  - Edges go into a QuikGraph-style adjacency graph through `AddVerticesAndEdge`.
- **The walk** (`walker.dfy`, `app.dfy`):
  - `WalkOutEdgesFrom` copies, into a fresh graph, the out-edges of every
    vertex reachable from the start.
  - A vertex that is already the source of a copied edge is not expanded again.
  - The application walks from the vertex named on the command line. If no
    vertex has that name, it draws the whole graph.
- **DOT generation** (`diagram_base.dfy`, `dot_generator.dfy`):
  - `SplitFullClassName` and the string-keyed `LookupMessageConsumerClasses`.
  - Module list, palette colour, clusters, node and edge statements, framed by
    the `digraph G {` header and the closing brace.

Modelling decisions:

- **Handlers and messages are their full class names.**
  - In `MessageFlowSymbolConverter.cs` the name `MessageHandlerClass` means the
    root-namespace class. That class overrides neither `Equals` nor
    `GetHashCode`, so its dictionary keys and `.Equals` calls (lines 58, 67,
    100-104) compare by reference.
  - The code still states the intent to identify handlers by class name (the
    comment at lines 48-50 and the name comparer at line 53). The model
    follows that intent, so `Handler` and `Message` are datatypes holding the
    name.
  - `Identity.RootClassesCompareByReference` states the difference.
- **Dictionaries enumerate in insertion order.** This is true of a .NET
  `Dictionary` that is never removed from.
  - `ConcurrentDictionary` has no specified order. The model enumerates the
    clusters in insertion order.
  - The properties proved about clusters are about their contents and about
    which block each node sits in, so they do not depend on that order.
- **Names without a dot are an error result.** `SplitFullClassName` calls
  `Substring(0, -1)` on such a name, which throws. The model returns a
  `Failure` carrying the name, and `Generate` fails exactly when some class or
  message of a match has no dot.
- **Node labels are kept structured.** A node carries its class name, colour,
  namespace part and class part, not the HTML markup.

Two behaviours of the code are easy to misread:

- **Edges between the same ordered pair are not all kept.** `ConvertToGraph`
  in `MessageFlowSymbolConverter.cs` builds its graph with
  `allowParallelEdges = false` (line 27). `AddVerticesAndEdge` then drops every
  later edge between the same ordered pair, whatever its message, so a
  producer that sends a consumer two messages gets one edge, tagged with the
  first. `SymbolConverter.ConvertedGraphShape` proves at most one edge per
  pair, and `SymbolConverter.SharedMessagesGiveOneEdge` proves exactly one.
- **Modules are listed in first-occurrence order, not sorted.**
  `ExtractModuleNames` keeps the order in which the module names first
  occur: producer keys first, then consumer keys. The colour of a module is
  its position in that list modulo ten. `DotGenerator.ModuleListOrder` states
  that order.

## Model

| member | source | states |
|---|---|---|
| Identity.Equals | MassTransitCommVisualizer/Model/MessageHandlerDefinition.cs:39-44 | `Equals(other)` holds exactly when `other` is non-null and has the same full class name; module name and comment play no part (one generic definition covers the four Model classes) |
| Identity.EqualsObject | MassTransitCommVisualizer/Model/MessageHandlerDefinition.cs:46-52 | the `object` overload is true exactly for an object of the same class with the same name, and false for null and for other runtime types |
| Identity.ComparerEquals | MassTransitCommVisualizer/Model/MessageHandlerDefinition.cs:22-31 | the nested comparer: both null, or both non-null with the same name |
| Identity.EqualsIsEquivalence | MassTransitCommVisualizer/Model/MessageDefinition.cs:35-40 | name equality is reflexive, symmetric and transitive |
| Identity.EqualInstancesHashEqually | MassTransitCommVisualizer/Model/MessageHandlerDefinition.cs:54-57 | equal instances have equal hash codes, whatever `string.GetHashCode` returns |
| Identity.ComparerAgreesWithEquals | MassTransitCommVisualizer/Model/MessageClass.cs:18-53 | on non-null arguments the comparer's `Equals` and `GetHashCode` agree with the class's own |
| Identity.CommentIsNotIdentity | MassTransitCommVisualizer/Model/MessageHandlerDefinition.cs:11-14 | setting `Comment`, the only settable property, changes neither equality nor hash |
| Identity.InheritedEqualsRefinesComparer | MassTransitCommVisualizer/MessageHandlerClass.cs:7-34 | a class without an `Equals` override compares by reference, which is finer than its nested comparer: whatever the inherited `Equals` accepts, the comparer accepts too; every reference equals itself; null is never equal |
| Identity.RootClassesCompareByReference | MassTransitCommVisualizer/MessageHandlerClass.cs:7-34 | two root-namespace objects with one name (MessageHandlerClass here, MessageClass at MassTransitCommVisualizer/MessageClass.cs:7-33, through the type parameter) are equal for the comparer but not for the inherited `Equals` |
| Identity.StaticEquals | MassTransitCommVisualizer/Model/EdgeDefinition.cs:22 | static `object.Equals(a, b)` on components is name equality, null matching only null |
| Identity.EdgeEquals | MassTransitCommVisualizer/Model/EdgeDefinition.cs:18-23 | two edges are equal exactly when source, target and message are each name-equal; null is never equal |
| Identity.EdgeEqualsObject | MassTransitCommVisualizer/Model/EdgeDefinition.cs:25-31 | the `object` overload agrees with the typed one and is false for null and other types |
| Identity.EdgeHashCode | MassTransitCommVisualizer/Model/EdgeDefinition.cs:33-42 | `EdgeDefinition.GetHashCode`: `((h(S)*397)^h(T))*397^h(E)` with 32-bit wrap-around and 0 for a null component; specified by `Identity.EqualEdgesHashEqually` |
| Identity.EqualEdgesHashEqually | MassTransitCommVisualizer/Model/EdgeDefinition.cs:33-42 | equal edges have equal `((h(S)*397)^h(T))*397^h(E)` hashes, computed with 32-bit wrap-around and 0 for null components |
| ExtensionMethods.AddIfNotExist | MassTransitCommVisualizer/ExtensionMethods.cs:8-16 | a present item leaves the list unchanged; otherwise the list is a prefix of the result, which holds the item; duplicate-freeness is kept |
| ExtensionMethods.AddRangeIfNotExist | MassTransitCommVisualizer/ExtensionMethods.cs:18-24 | the original list is a prefix, every item is present, nothing else is added, duplicate-freeness is kept |
| ExtensionMethods.AddRangeConcat | MassTransitCommVisualizer/ExtensionMethods.cs:18-24 | adding two ranges one after the other is adding their concatenation |
| ExtensionMethods.AddRangeIsDistinctOfConcat | MassTransitCommVisualizer/ExtensionMethods.cs:18-24 | adding a range to a duplicate-free list is `Distinct` of the concatenation |
| ExtensionMethods.Distinct | MassTransitCommVisualizer/MessageFlowSymbolConverter.cs:104 | `Distinct()` keeps exactly the elements of its input, each once |
| ExtensionMethods.DistinctKeepsFirstOccurrenceOrder | MassTransitCommVisualizer/MessageFlowSymbolConverter.cs:104 | `Distinct()` orders elements by their first occurrence in the input |
| ExtensionMethods.DistinctIdempotent | MassTransitCommVisualizer/MessageFlowSymbolConverter.cs:104 | deduplicating twice is deduplicating once |
| ExtensionMethods.DistinctOfDuplicateFree | MassTransitCommVisualizer/MessageFlowSymbolConverter.cs:104 | a duplicate-free list is its own `Distinct` |
| ExtensionMethods.Union | MassTransitCommVisualizer/MessageFlowSymbolConverter.cs:51-54 | LINQ `Union` holds each element of either input once and nothing else |
| ModuleNames.Split | MassTransitCommVisualizer/MessageFlowSymbolConverter.cs:148 | `Split('.')` gives at least one dot-free part, and joining the parts with dots gives the input back |
| ModuleNames.JoinPrefix | MassTransitCommVisualizer/MessageFlowSymbolConverter.cs:148-149 | joining the first k parts gives a prefix of the name with k-1 dots, followed in the name by a dot when parts remain |
| ModuleNames.GetModuleName | MassTransitCommVisualizer/MessageFlowSymbolConverter.cs:146-152 | `GetModuleName`: the first three dot-separated parts of a name, joined again; specified by `ModuleNames.ModuleNameIsPrefixBeforeThirdDot` and `ModuleNames.GetModuleNameIdempotent` |
| ModuleNames.ModuleNameIsPrefixBeforeThirdDot | MassTransitCommVisualizer/MessageFlowSymbolConverter.cs:146-152 | the module name is a prefix of the input; it is the whole input when that has at most two dots, and otherwise the text before the third dot |
| ModuleNames.GetModuleNameIdempotent | MassTransitCommVisualizer/MessageFlowSymbolConverter.cs:146-152 | the module name of a module name is itself |
| Dictionaries.Put | MassTransitCommVisualizer/MessageFlowSymbolConverter.cs:104 | the indexer setter stores the value under the key, appends a new key at the end and changes no other key's value |
| Dictionaries.GetAfterPut | MassTransitCommVisualizer/MessageFlowSymbolConverter.cs:100-104 | reading after `result[key] = value` gives the value under that key and the old value under every other |
| Dictionaries.KeysListing | MassTransitCommVisualizer/MessageFlowSymbolConverter.cs:115-117 | the `Where(...).Select(kv => kv.Key)` query keeps exactly the keys whose list contains the message |
| Dictionaries.KeysListingHasNoDuplicates | MassTransitCommVisualizer/MessageFlowSymbolConverter.cs:115-119 | in a dictionary proper that query lists no key twice |
| SymbolConverter.MergeDictionaryKeys | MassTransitCommVisualizer/MessageFlowSymbolConverter.cs:98-105 | the inner loop adds each key not yet present at the end, in enumeration order |
| SymbolConverter.MergeDictionaryGet | MassTransitCommVisualizer/MessageFlowSymbolConverter.cs:98-105 | after the inner loop a key of the input holds `Distinct` of its old list followed by its lists from the input; other keys are unchanged |
| SymbolConverter.MergeEntryGet | MassTransitCommVisualizer/MessageFlowSymbolConverter.cs:100-104 | one entry replaces the key's list by `Distinct` of current list plus new messages and touches no other key |
| SymbolConverter.MergeDictionaries | MassTransitCommVisualizer/MessageFlowSymbolConverter.cs:92-109 | `MergeDictionaries`: folds the handler-to-messages dictionaries into one, in order; its keys are specified by `SymbolConverter.MergeDictionariesKeys` and each key's list by `SymbolConverter.MergeDictionariesGet` and `SymbolConverter.MergedListsIffListedIn` |
| SymbolConverter.MergeDictionariesKeys | MassTransitCommVisualizer/MessageFlowSymbolConverter.cs:92-109 | the merged keys are the distinct keys of all inputs in first-occurrence order, and no key repeats |
| SymbolConverter.MergeDictionariesGet | MassTransitCommVisualizer/MessageFlowSymbolConverter.cs:92-109 | a key of some input maps to the duplicate-free concatenation of its lists in input order, first occurrences kept; any other key is absent |
| SymbolConverter.MergedListsIffListedIn | MassTransitCommVisualizer/MessageFlowSymbolConverter.cs:92-109 | the merged list of a key contains a message exactly when some input lists it under that key |
| SymbolConverter.LookupMessageConsumerClasses | MassTransitCommVisualizer/MessageFlowSymbolConverter.cs:111-120 | exactly the consumers whose list holds the message, each once |
| SymbolConverter.KeysAreAllHandlers | MassTransitCommVisualizer/MessageFlowSymbolConverter.cs:51-54 | every producer and consumer key is among `allMessageHandlers` |
| SymbolConverter.Canonical | MassTransitCommVisualizer/MessageFlowSymbolConverter.cs:58 | `allMessageHandlers.First(handler => handler.Equals(key))` finds the handler with the key's name |
| SymbolConverter.ConsumerEdges | MassTransitCommVisualizer/MessageFlowSymbolConverter.cs:65-70 | one candidate edge from the producer to each consumer, tagged with the message |
| SymbolConverter.MessageEdges | MassTransitCommVisualizer/MessageFlowSymbolConverter.cs:61-71 | the producer's candidate edges are exactly its sent messages joined with every consumer that lists them |
| SymbolConverter.ProducerEdgesAreMatches | MassTransitCommVisualizer/MessageFlowSymbolConverter.cs:56-72 | an edge is a candidate exactly when its source lists its message as sent and its target lists it as handled |
| SymbolConverter.ConvertToGraph | MassTransitCommVisualizer/MessageFlowSymbolConverter.cs:24-75 | `ConvertToGraph`: the graph of producer→consumer matches; specified by `SymbolConverter.ConvertedGraphShape`, `SymbolConverter.ConvertedEdgesAreMatches`, `SymbolConverter.ConvertedGraphJoinsEveryMatch` and `SymbolConverter.SharedMessagesGiveOneEdge` |
| SymbolConverter.ConvertedGraphShape | MassTransitCommVisualizer/MessageFlowSymbolConverter.cs:24-75 | the graph disallows parallel edges, has at most one edge per ordered pair, no dangling edge, no repeated vertex, and its vertices are exactly the edges' endpoints |
| SymbolConverter.ConvertedEdgesAreMatches | MassTransitCommVisualizer/MessageFlowSymbolConverter.cs:56-69 | soundness: every edge runs from a handler that sends its message to one that handles it |
| SymbolConverter.ConvertedGraphJoinsEveryMatch | MassTransitCommVisualizer/MessageFlowSymbolConverter.cs:56-69 | completeness: whenever p sends m and c handles m, the graph has an edge p→c |
| SymbolConverter.SharedMessagesGiveOneEdge | MassTransitCommVisualizer/MessageFlowSymbolConverter.cs:27 | a producer that sends two messages a consumer handles is still joined to that consumer by exactly one edge, because parallel edges are disallowed |
| SymbolConverter.UnhandledMessageAddsNoEdge | MassTransitCommVisualizer/MessageFlowSymbolConverter.cs:63-65 | a message no consumer handles tags no edge |
| FlowGraph.AddVerticesAndEdge | MassTransitCommVisualizer/MessageFlowSymbolConverter.cs:68-69 | the edge is appended when parallel edges are allowed; when they are disallowed it is dropped exactly when an edge already joins the same ordered pair, and appended otherwise; the parallel-edge flag is unchanged (the endpoints added as vertices are stated by `FlowGraph.AddVerticesAndEdgeVertices`) |
| FlowGraph.AddVerticesAndEdgeVertices | MassTransitCommVisualizer/MessageFlowSymbolConverter.cs:68-69 | both endpoints become vertices, existing vertices stay, well-formedness is kept |
| FlowGraph.AddVerticesAndEdgeJoins | MassTransitCommVisualizer/MessageFlowSymbolConverter.cs:68-69 | afterwards the two endpoints are joined, old joins remain, and a graph without parallel edges stays without |
| FlowGraph.AddEdgesToEmpty | MassTransitCommVisualizer/MessageFlowSymbolConverter.cs:27 | adding edges to an empty graph without parallel edges gives a well-formed graph with at most one edge per pair whose vertices are the endpoints |
| FlowGraph.OneEdgePerPair | MassTransitCommVisualizer/MessageFlowSymbolConverter.cs:27 | in a graph without parallel edges, two joined vertices are joined by exactly one edge |
| FlowGraph.OutEdges | MassTransitCommVisualizer/GraphWalkerAlgorithms.cs:30 | `OutEdges(v)` yields original edges leaving `v` |
| FlowGraph.OutOfSelects | MassTransitCommVisualizer/GraphWalkerAlgorithms.cs:30 | an edge is an out-edge of `v` exactly when it is in the graph and leaves `v` |
| GraphWalker.WalkFrom | MassTransitCommVisualizer/GraphWalkerAlgorithms.cs:22-36 | the recursive walk terminates, keeps every edge already generated and keeps parallel edges allowed |
| GraphWalker.WalkEdges | MassTransitCommVisualizer/GraphWalkerAlgorithms.cs:30-35 | the loop over out-edges terminates and keeps every edge already generated |
| GraphWalker.WalkFromCopiesWholeOutLists | MassTransitCommVisualizer/GraphWalkerAlgorithms.cs:22-36 | each vertex the walk expands contributes its whole out-edge list, in order, and only unexpanded vertices are expanded |
| GraphWalker.WalkFromStaysReachable | MassTransitCommVisualizer/GraphWalkerAlgorithms.cs:22-36 | every vertex expanded is reachable from the vertex the walk started at |
| GraphWalker.WalkFromSettles | MassTransitCommVisualizer/GraphWalkerAlgorithms.cs:22-36 | the target of every copied edge ends up expanded or had no out-edges |
| GraphWalker.WalkOutEdgesFrom | MassTransitCommVisualizer/GraphWalkerAlgorithms.cs:14-20 | `WalkOutEdgesFrom`: the walk from the start vertex into a fresh graph that allows parallel edges; specified by `GraphWalker.WalkCopiesExactlyReachableOutEdges`, `GraphWalker.WalkCopiesEachEdgeOnce` and `GraphWalker.WalkVerticesAreEndpoints` |
| GraphWalker.WalkCopiesExactlyReachableOutEdges | MassTransitCommVisualizer/GraphWalkerAlgorithms.cs:14-36 | the result holds, for each vertex reachable from the start, exactly its original out-edge list, and no edge out of any other vertex |
| GraphWalker.WalkCopiesOnlyReachableEdges | MassTransitCommVisualizer/GraphWalkerAlgorithms.cs:30-34 | soundness: every result edge is an original edge whose source is reachable from the start |
| GraphWalker.WalkCopiesEveryReachableEdge | MassTransitCommVisualizer/GraphWalkerAlgorithms.cs:30-35 | completeness: every original edge leaving a reachable vertex is in the result |
| GraphWalker.WalkCopiesEachEdgeOnce | MassTransitCommVisualizer/GraphWalkerAlgorithms.cs:24-35 | each reachable out-edge occurs in the result as often as in the original, and no other edge occurs |
| GraphWalker.WalkVerticesAreEndpoints | MassTransitCommVisualizer/GraphWalkerAlgorithms.cs:14-20 | the fresh graph allows parallel edges and is well-formed; its vertices are exactly its edges' endpoints; it is empty exactly when the start has no out-edge |
| App.FindVertex | MassTransitCommVisualizer/App.cs:60-62 | `FirstOrDefault` finds a vertex exactly when some vertex has the name, and it is the handler with that name |
| App.GraphToVisualize | MassTransitCommVisualizer/App.cs:60-67 | the graph handed to the diagram generator: the walk from the vertex named by the starting producer, or the whole graph; specified by `App.GraphToVisualizeEdges` and `App.VisualizedConvertedGraph` |
| App.GraphToVisualizeEdges | MassTransitCommVisualizer/App.cs:60-67 | with a vertex of that name the drawn graph holds exactly the out-edges of the vertices reachable from it; without one it is the whole graph |
| App.VisualizedConvertedGraph | MassTransitCommVisualizer/App.cs:45-66 | from a converted graph, the drawn edges are exactly the converted edges out of handlers reachable from the named one |
| DiagramBase.LastIndexOf | MassTransitCommVisualizer/DiagramGeneratorBase.cs:10 | `LastIndexOf` is -1 exactly when the character is absent, and otherwise the position of its last occurrence |
| DiagramBase.SplitFullClassName | MassTransitCommVisualizer/DiagramGeneratorBase.cs:8-13 | the split fails, carrying the name, exactly when the name has no dot |
| DiagramBase.SplitParts | MassTransitCommVisualizer/DiagramGeneratorBase.cs:8-13 | namespace + "." + class gives the name back, and the class part is the dot-free text after the last dot |
| DiagramBase.SplitJoined | MassTransitCommVisualizer/DiagramGeneratorBase.cs:8-13 | splitting a namespace joined by a dot to a dot-free class name gives the two parts back |
| DiagramBase.LookupMessageConsumerClasses | MassTransitCommVisualizer/DiagramGeneratorBase.cs:15-21 | exactly the keys whose array contains the message by `==`; empty for an empty map |
| DiagramBase.LookupListsEachClassOnce | MassTransitCommVisualizer/DiagramGeneratorBase.cs:15-21 | the lookup lists each key at most once |
| DotGenerator.PaletteIndexInverts | MassTransitCommVisualizer/GraphvizDotDiagramGenerator.cs:13-24 | the palette's k-th colour maps back to k, so the ten palette colours are pairwise different and none is red |
| DotGenerator.ExtractModuleNames | MassTransitCommVisualizer/GraphvizDotDiagramGenerator.cs:114-124 | the module names of all inputs, each once, and nothing else |
| DotGenerator.ModulesOfDistinct | MassTransitCommVisualizer/GraphvizDotDiagramGenerator.cs:114-124 | deduplicating the class names first does not change the module list |
| DotGenerator.ModuleListOrder | MassTransitCommVisualizer/GraphvizDotDiagramGenerator.cs:33 | the module list is the distinct modules of the producer keys followed by the consumer keys, in first-occurrence order |
| DotGenerator.GetNamespaceColor | MassTransitCommVisualizer/GraphvizDotDiagramGenerator.cs:146-152 | red exactly when the class's module is not listed, and otherwise a palette colour |
| DotGenerator.ColorOfModuleAt | MassTransitCommVisualizer/GraphvizDotDiagramGenerator.cs:146-152 | a class whose module is at index i gets `palette[i mod 10]` |
| DotGenerator.ColorsRepeatEveryTenModules | MassTransitCommVisualizer/GraphvizDotDiagramGenerator.cs:146-152 | two listed modules get the same colour exactly when their indices agree mod 10 |
| DotGenerator.MessageTriples | MassTransitCommVisualizer/GraphvizDotDiagramGenerator.cs:55-66 | one match per consumer of the message, in lookup order |
| DotGenerator.TriplesAreMatches | MassTransitCommVisualizer/GraphvizDotDiagramGenerator.cs:37-68 | a (producer, consumer, message) is collected exactly when the producer's array and the consumer's array both contain the message |
| DotGenerator.TriplesOnce | MassTransitCommVisualizer/GraphvizDotDiagramGenerator.cs:37-68 | when no producer lists a message twice, no match is collected twice |
| DotGenerator.AdditionsAreEndpoints | MassTransitCommVisualizer/GraphvizDotDiagramGenerator.cs:44-65 | the classes put into clusters are exactly the producers and consumers of the matches; a producer none of whose messages has a consumer is never added |
| DotGenerator.ClusterKeys | MassTransitCommVisualizer/GraphvizDotDiagramGenerator.cs:44-64 | the cluster keys are the distinct modules of the added classes |
| DotGenerator.ClusterContents | MassTransitCommVisualizer/GraphvizDotDiagramGenerator.cs:44-64 | each module's cluster lists the added classes of that module in order; other modules have none |
| DotGenerator.ClusterMembersAreAdditions | MassTransitCommVisualizer/GraphvizDotDiagramGenerator.cs:44-64 | a class is in some cluster exactly when it was added |
| DotGenerator.ClusteredClassesAreEndpoints | MassTransitCommVisualizer/GraphvizDotDiagramGenerator.cs:44-64 | a class is in some cluster exactly when it is the producer or consumer of a match |
| DotGenerator.EndpointsAreClusteredByModule | MassTransitCommVisualizer/GraphvizDotDiagramGenerator.cs:44-64 | every producer and consumer of a match is listed in the cluster keyed by its own module |
| DotGenerator.EndpointIsKey | MassTransitCommVisualizer/GraphvizDotDiagramGenerator.cs:37-66 | every class of a match is a key of one of the two dictionaries |
| DotGenerator.ClusterHeader | MassTransitCommVisualizer/GraphvizDotDiagramGenerator.cs:88-92 | the five lines opening a cluster are plain text; the first is `subgraph "cluster_<module>"`, the third is `label = "<module>"`, and none is the closing brace |
| DotGenerator.NodeLine | MassTransitCommVisualizer/GraphvizDotDiagramGenerator.cs:134-144 | a node succeeds exactly when the class name has a dot; it carries the name and `GetNamespaceColor`'s colour |
| DotGenerator.NodeLines | MassTransitCommVisualizer/GraphvizDotDiagramGenerator.cs:93-96 | one node per class, succeeding exactly when every name has a dot |
| DotGenerator.NodeLineAt | MassTransitCommVisualizer/GraphvizDotDiagramGenerator.cs:93-96 | the i-th node is the i-th class, with its namespace colour |
| DotGenerator.ClusterBlock | MassTransitCommVisualizer/GraphvizDotDiagramGenerator.cs:88-98 | a cluster block succeeds exactly when its names have dots and holds no edge; every node is one of its classes in its module colour, and every one of its classes is drawn as a node in that colour, after the block's `subgraph "cluster_<module>"` line with no closing brace between |
| DotGenerator.BlockPlacesItsNodes | MassTransitCommVisualizer/GraphvizDotDiagramGenerator.cs:88-98 | the node of every class of a cluster lies between that cluster's opening line and its closing brace |
| DotGenerator.ClusterLines | MassTransitCommVisualizer/GraphvizDotDiagramGenerator.cs:86-99 | the cluster blocks succeed exactly when every clustered name has a dot and hold no edge; every node is a clustered class in its module colour, and every clustered class is drawn as a node in that colour, inside the block opened by its own cluster's key |
| DotGenerator.EdgeLineOf | MassTransitCommVisualizer/GraphvizDotDiagramGenerator.cs:105-107 | an edge statement joins producer to consumer and is labelled with the text after the message's last dot; it fails exactly when the message has no dot |
| DotGenerator.EdgeLines | MassTransitCommVisualizer/GraphvizDotDiagramGenerator.cs:103-108 | one edge statement per match, succeeding exactly when every message has a dot |
| DotGenerator.EdgeLineAt | MassTransitCommVisualizer/GraphvizDotDiagramGenerator.cs:103-108 | the i-th edge statement belongs to the i-th match |
| DotGenerator.AssembledParts | MassTransitCommVisualizer/GraphvizDotDiagramGenerator.cs:76-112 | in the assembled text the edge statements are exactly the edge lines, in order, and every node comes from the cluster blocks |
| DotGenerator.GenerateUmlStateDiagram | MassTransitCommVisualizer/GraphvizDotDiagramGenerator.cs:76-112 | `GenerateUmlStateDiagram`: header, cluster blocks, an empty line, edge statements and the closing brace; specified by `DotGenerator.DiagramParts` |
| DotGenerator.DiagramParts | MassTransitCommVisualizer/GraphvizDotDiagramGenerator.cs:76-112 | the diagram succeeds exactly when clusters and edges do; its edge statements are the edge lines, its nodes come from the clusters, and every cluster line is in it |
| DotGenerator.Generate | MassTransitCommVisualizer/GraphvizDotDiagramGenerator.cs:31-74 | `Generate`: the DOT text for the producer and consumer dictionaries; specified by `DotGenerator.GenerateIsFramed`, `DotGenerator.GenerateEmitsOneEdgePerMatch`, `DotGenerator.GenerateDrawsExactlyTheEndpoints`, `DotGenerator.GenerateClustersEndpointsByModule`, `DotGenerator.GenerateNodesAreNeverRed` and `DotGenerator.GenerateSucceedsIffNamesHaveDots` |
| DotGenerator.GenerateIsFramed | MassTransitCommVisualizer/GraphvizDotDiagramGenerator.cs:76-112 | the output starts with the `digraph G {` header lines and ends with the closing brace |
| DotGenerator.GenerateEmitsOneEdgePerMatch | MassTransitCommVisualizer/GraphvizDotDiagramGenerator.cs:31-74 | the edge statements are the matches in order: one per producer, sent message and consuming class, each labelled with the message's last segment |
| DotGenerator.GenerateDrawsExactlyTheEndpoints | MassTransitCommVisualizer/GraphvizDotDiagramGenerator.cs:31-112 | every producer and consumer of a match is drawn as a node in its module's colour, and every node drawn is one of them in that colour |
| DotGenerator.GenerateClustersEndpointsByModule | MassTransitCommVisualizer/GraphvizDotDiagramGenerator.cs:31-99 | every producer and consumer of a match is drawn inside the block `subgraph "cluster_<m>"` of its own module `m`: the block opens before its node and is not closed in between |
| DotGenerator.GenerateNodesAreNeverRed | MassTransitCommVisualizer/GraphvizDotDiagramGenerator.cs:31-74 | every rendered node is a dictionary key, so its module is listed and it never gets the red fallback |
| DotGenerator.GenerateSucceedsIffNamesHaveDots | MassTransitCommVisualizer/GraphvizDotDiagramGenerator.cs:31-74 | `Generate` returns exactly when every producer, consumer and message of every match has a dot |

## Left out

- Symbol collection is left out: Roslyn, MSBuild and Visual Studio discovery
  (`SymbolFinder.cs`, `MessageFlowSymbolCollector.cs`,
  `MessageDataFlowCollector.cs`, `VisualStudioInstanceFinder.cs`) are
  compilers and I/O. `ExtractInformationFromSymbols` and `Convert` are
  replaced by the name-level maps of `MessageFlowInformation`.
- I/O in `Program.cs` and `App.cs` is left out: command-line parsing, binary
  graph serialisation, console output, and Graphviz layout and SVG writing.
- `App.cs` line 70 calls an instance `Generate(graph, vertex)` that no
  shown file defines: the shown `GraphvizDotDiagramGenerator` has only the
  static, dictionary-based `Generate`, and the `IGraphvizDotDiagramGenerator`
  interface of `App.cs` line 20 is not part of this model. The model covers
  the graph choice that comes before the call (`App.GraphToVisualize`) and
  the static `Generate` that is shown.
- The snapshot's graph types do not match: `App.cs` line 45 assigns the
  converter's `AdjacencyGraph<MessageHandlerClass, …>` to a
  `MessageFlowGraph`. Both are modelled as `Graph<Handler, Message>`.
- `UmlStateDiagramGenerator.cs` is a second renderer and is not part of this
  model.
- The HTML table markup of node labels and `ColorTranslator.ToHtml` are left
  out. A node is the structured `Line.Node`.
- String escaping and the exact characters of a node or edge statement are
  left out. Header, cluster-opening and closing lines are kept as text.
- `string.GetHashCode` values are a parameter: the runtime does not fix them.
- Reference identity of handler objects in the converter is left out (see
  the assumption above). `Identity.RootClassesCompareByReference` states what
  the literal code would do instead.
- `ConcurrentDictionary` enumeration order is not modelled: clusters are
  enumerated in insertion order, and only their contents are specified.
- Null strings inside the graph engine are left out: class and message names
  there are non-null. `Identity` does model null names and null references.
- The static `etrModulesList` shared between calls is left out: the module
  list is passed to the node functions explicitly.
- ExtensionMethods.AddIfNotExist: models the method for non-null reference
  elements only. The shown engine never calls it; the model uses it over
  non-null, name-keyed references to define LINQ `Distinct`. For a value type `T`,
  `FirstOrDefault(...) != null` (line 10) is always true, so the source never
  appends; the model appends an absent item whatever its type.
- DotGenerator.NodeLines: states success and length only. The per-node facts
  (class name and colour of the i-th node) are in `DotGenerator.NodeLineAt`.
- DotGenerator.EdgeLines: states success and length only. The per-line facts
  are in `DotGenerator.EdgeLineAt`.

=== FILE: app.dfy ===
/**
 * The part of the application's `Run` that chooses what to draw: the
 * vertex named by the starting-producer option, found with `FirstOrDefault`,
 * and the graph walked out from it, or the whole graph when no vertex has
 * that name.
 */
module App {
  import opened Wrappers
  import opened ExtensionMethods
  import opened FlowGraph
  import opened GraphWalker
  import opened SymbolConverter

  /** Some vertex of `vertices` has the full class name `name`. */
  predicate HasVertexNamed(vertices: seq<Handler>, name: string) {
    exists i :: 0 <= i < |vertices| && vertices[i].fullClassName == name
  }

  /**
   * `Vertices.FirstOrDefault(vertex => vertex.FullClassName == startingProducer)`:
   * the first vertex with that name, or null. A handler is its name, so
   * the first such vertex is every such vertex.
   */
  function FindVertex(vertices: seq<Handler>, name: string): (r: Option<Handler>)
    ensures r.Some? <==> HasVertexNamed(vertices, name)
    ensures r.Some? ==> r.value in vertices && r.value == Handler(name)
    decreases |vertices|
  {
    if vertices == [] then None
    else if vertices[0].fullClassName == name then Some(vertices[0])
    else
      var r := FindVertex(vertices[1..], name);
      assert forall i :: 1 <= i < |vertices| ==> vertices[1..][i - 1] == vertices[i];
      r
  }

  /** The graph handed to the diagram generator: the walk from the named vertex, or the whole graph. */
  function GraphToVisualize(g: Graph<Handler, Message>, startingProducer: string): Graph<Handler, Message>
    requires WellFormed(g)
  {
    match FindVertex(g.vertices, startingProducer)
    case Some(start) => WalkOutEdgesFrom(g, start)
    case None => g
  }

  /**
   * With a vertex of that name the drawn graph holds exactly the out-edge
   * lists of the vertices reachable from it; with none it is the whole
   * graph, edges and vertices.
   */
  lemma GraphToVisualizeEdges(g: Graph<Handler, Message>, startingProducer: string)
    requires WellFormed(g)
    ensures var r := GraphToVisualize(g, startingProducer);
      && (HasVertexNamed(g.vertices, startingProducer) ==>
        var start := Handler(startingProducer);
        forall u :: OutOf(r.edges, u) == if Reachable(g, start, u) then OutOf(g.edges, u) else [])
      && (!HasVertexNamed(g.vertices, startingProducer) ==> r == g)
  {
    var found := FindVertex(g.vertices, startingProducer);
    if found.Some? {
      WalkCopiesExactlyReachableOutEdges(g, found.value);
    }
  }

  /** Converting the observations and choosing the graph to draw from them. */
  function VisualizeConverted(info: MessageFlowInformation, startingProducer: string): Graph<Handler, Message> {
    ConvertedGraphShape(info);
    GraphToVisualize(ConvertToGraph(info), startingProducer)
  }

  /**
   * Drawing from a vertex of the converted graph: every drawn edge is a
   * converted edge out of a handler reachable from the named one, and every
   * such edge is drawn.
   */
  lemma VisualizedConvertedGraph(info: MessageFlowInformation, startingProducer: string)
    requires HasVertexNamed(ConvertToGraph(info).vertices, startingProducer)
    ensures var g := ConvertToGraph(info);
      var r := VisualizeConverted(info, startingProducer);
      forall e :: e in r.edges <==> e in g.edges && Reachable(g, Handler(startingProducer), e.source)
  {
    var g := ConvertToGraph(info);
    ConvertedGraphShape(info);
    var start := FindVertex(g.vertices, startingProducer).value;
    WalkCopiesOnlyReachableEdges(g, start);
    WalkCopiesEveryReachableEdge(g, start);
  }
}

=== FILE: converter.dfy ===
/**
 * MessageFlowSymbolConverter: merges the per-role observations into one
 * producer map and one consumer map, then joins them on message names into
 * the message-flow graph.
 *
 * Handlers and messages are identified by their full class names (the
 * name-based comparers, and the intent stated at lines 48-50 of the
 * converter); the Roslyn symbols the observations are extracted from are
 * replaced by those names.
 */
module SymbolConverter {
  import opened Wrappers
  import opened ExtensionMethods
  import opened Dictionaries
  import opened ModuleNames
  import opened FlowGraph

  /** `MessageHandlerClass`: its module name is derived from the full name when it is converted. */
  datatype Handler = Handler(fullClassName: string) {
    function ModuleName(): string {
      GetModuleName(fullClassName)
    }
  }

  /** `MessageClass`. */
  datatype Message = Message(fullClassName: string)

  type HandlerMessages = Dict<Handler, seq<Message>>

  /** The six role maps of `MessageFlowInformation`, in its constructor's order. */
  datatype MessageFlowInformation = MessageFlowInformation(
    publishers: HandlerMessages,
    responders: HandlerMessages,
    senders: HandlerMessages,
    responseSenders: HandlerMessages,
    consumerImplementations: HandlerMessages,
    responseReceivers: HandlerMessages)

  /*
   * Merging.
   */

  /** One entry of the inner loop: the key's current list, extended and deduplicated, stored back. */
  function MergeEntry<K(==), M(==)>(acc: Dict<K, seq<M>>, key: K, messages: seq<M>): Dict<K, seq<M>> {
    Put(acc, key, Distinct(Current(acc, key) + messages))
  }

  /** The inner loop of `MergeDictionaries`: every entry of `d`, in order. */
  function MergeDictionary<K(==), M(==)>(acc: Dict<K, seq<M>>, d: Dict<K, seq<M>>): Dict<K, seq<M>>
    decreases |d|
  {
    if d == [] then acc
    else MergeEntry(MergeDictionary(acc, d[..|d| - 1]), d[|d| - 1].0, d[|d| - 1].1)
  }

  /** `MergeDictionaries`: every dictionary of `ds`, in order, into a fresh result. */
  function MergeDictionaries<K(==), M(==)>(ds: seq<Dict<K, seq<M>>>): Dict<K, seq<M>>
    decreases |ds|
  {
    if ds == [] then []
    else MergeDictionary(MergeDictionaries(ds[..|ds| - 1]), ds[|ds| - 1])
  }

  /** The keys of all dictionaries of `ds`, in enumeration order, repetitions kept. */
  function AllKeys<K, V>(ds: seq<Dict<K, V>>): seq<K>
    decreases |ds|
  {
    if ds == [] then [] else AllKeys(ds[..|ds| - 1]) + Keys(ds[|ds| - 1])
  }

  /** Every list stored under `key` in any dictionary of `ds`, concatenated in enumeration order. */
  function AllValuesOf<K(==), M>(ds: seq<Dict<K, seq<M>>>, key: K): seq<M>
    decreases |ds|
  {
    if ds == [] then [] else AllValuesOf(ds[..|ds| - 1], key) + ValuesOf(ds[|ds| - 1], key)
  }

  lemma {:induction false} MergeDictionaryKeys<K, M>(acc: Dict<K, seq<M>>, d: Dict<K, seq<M>>)
    ensures Keys(MergeDictionary(acc, d)) == AddRangeIfNotExist(Keys(acc), Keys(d))
    decreases |d|
  {
    if d != [] {
      var front, last := d[..|d| - 1], d[|d| - 1];
      MergeDictionaryKeys(acc, front);
      KeysOfSnoc(d);
      var ks := Keys(d);
      assert ks[..|ks| - 1] == Keys(front) && ks[|ks| - 1] == last.0;
    }
  }

  /**
   * The merged map has one key per distinct key of the inputs, in order of
   * first appearance across the inputs.
   */
  lemma {:induction false} MergeDictionariesKeys<K, M>(ds: seq<Dict<K, seq<M>>>)
    ensures Keys(MergeDictionaries(ds)) == Distinct(AllKeys(ds))
    ensures IsDictionary(MergeDictionaries(ds))
    decreases |ds|
  {
    if ds != [] {
      var front := ds[..|ds| - 1];
      MergeDictionariesKeys(front);
      MergeDictionaryKeys(MergeDictionaries(front), ds[|ds| - 1]);
      AddRangeConcat([], AllKeys(front), Keys(ds[|ds| - 1]));
    }
  }

  lemma {:induction false} ValuesOfAbsentKey<K, M>(d: Dict<K, seq<M>>, key: K)
    requires key !in Keys(d)
    ensures ValuesOf(d, key) == []
    decreases |d|
  {
    if d != [] {
      var front := d[..|d| - 1];
      assert Keys(front) == Keys(d)[..|d| - 1];
      ValuesOfAbsentKey(front, key);
    }
  }

  lemma {:induction false} AllValuesOfAbsentKey<K, M>(ds: seq<Dict<K, seq<M>>>, key: K)
    requires key !in AllKeys(ds)
    ensures AllValuesOf(ds, key) == []
    decreases |ds|
  {
    if ds != [] {
      AllValuesOfAbsentKey(ds[..|ds| - 1], key);
      ValuesOfAbsentKey(ds[|ds| - 1], key);
    }
  }

  lemma ConcatAssociates<T>(a: seq<T>, b: seq<T>, c: seq<T>)
    ensures a + b + c == a + (b + c)
  {
  }

  lemma KeysOfSnoc<K, V>(d: Dict<K, V>)
    requires d != []
    ensures Keys(d) == Keys(d[..|d| - 1]) + [d[|d| - 1].0]
  {
  }

  /** One merge step changes the value under its own key only. */
  lemma MergeEntryGet<K, M>(acc: Dict<K, seq<M>>, k: K, messages: seq<M>, key: K)
    ensures Get(MergeEntry(acc, k, messages), key) ==
      if key == k then Some(Distinct(Current(acc, key) + messages)) else Get(acc, key)
  {
    var r := MergeEntry(acc, k, messages);
    if key != k && key !in Keys(acc) {
      assert Keys(r) == AddIfNotExist(Keys(acc), k);
      assert key !in Keys(r);
    }
  }

  /** The inner loop appends, under every key of `d`, that key's lists from `d` and deduplicates. */
  lemma {:induction false} MergeDictionaryGet<K, M>(acc: Dict<K, seq<M>>, d: Dict<K, seq<M>>, key: K)
    ensures Get(MergeDictionary(acc, d), key) ==
      if key in Keys(d) then Some(Distinct(Current(acc, key) + ValuesOf(d, key))) else Get(acc, key)
    decreases |d|
  {
    if d != [] {
      var front, last := d[..|d| - 1], d[|d| - 1];
      var acc' := MergeDictionary(acc, front);
      MergeDictionaryGet(acc, front, key);
      KeysOfSnoc(d);
      MergeEntryGet(acc', last.0, last.1, key);
      assert ValuesOf(d, key) == ValuesOf(front, key) + (if last.0 == key then last.1 else []);
      if key == last.0 {
        if key in Keys(front) {
          var x := Current(acc, key) + ValuesOf(front, key);
          assert Current(acc', key) == Distinct(x);
          DistinctOfDistinctPrefix(x, last.1);
          ConcatAssociates(Current(acc, key), ValuesOf(front, key), last.1);
        } else {
          ValuesOfAbsentKey(front, key);
          assert Current(acc', key) == Current(acc, key);
          assert ValuesOf(d, key) == last.1;
        }
      } else {
        assert key in Keys(d) <==> key in Keys(front);
        assert ValuesOf(d, key) == ValuesOf(front, key);
      }
    }
  }

  /**
   * Under every key the merged map stores the concatenation of that key's
   * lists across all inputs, in input order, without repetitions (first
   * occurrences kept); a key of no input is absent.
   */
  lemma {:induction false} MergeDictionariesGet<K, M>(ds: seq<Dict<K, seq<M>>>, key: K)
    ensures Get(MergeDictionaries(ds), key) ==
      if key in AllKeys(ds) then Some(Distinct(AllValuesOf(ds, key))) else None
    decreases |ds|
  {
    if ds != [] {
      var front, last := ds[..|ds| - 1], ds[|ds| - 1];
      MergeDictionariesGet(front, key);
      MergeDictionaryGet(MergeDictionaries(front), last, key);
      assert key in AllKeys(ds) <==> key in AllKeys(front) || key in Keys(last);
      if key in Keys(last) {
        if key in AllKeys(front) {
          DistinctOfDistinctPrefix(AllValuesOf(front, key), ValuesOf(last, key));
        } else {
          AllValuesOfAbsentKey(front, key);
          assert AllValuesOf(ds, key) == ValuesOf(last, key);
        }
      } else {
        ValuesOfAbsentKey(last, key);
        assert AllValuesOf(ds, key) == AllValuesOf(front, key);
      }
    }
  }

  /** Some dictionary of `ds` lists `m` under `key`. */
  ghost predicate ListedIn<K, M>(ds: seq<Dict<K, seq<M>>>, key: K, m: M) {
    exists i :: 0 <= i < |ds| && Lists(ds[i], key, m)
  }

  lemma {:induction false} AllValuesOfLists<K, M>(ds: seq<Dict<K, seq<M>>>, key: K, m: M)
    ensures m in AllValuesOf(ds, key) <==> ListedIn(ds, key, m)
    decreases |ds|
  {
    if ds != [] {
      var front, last := ds[..|ds| - 1], ds[|ds| - 1];
      AllValuesOfLists(front, key, m);
      ValuesOfLists(last, key, m);
      if ListedIn(front, key, m) {
        var i :| 0 <= i < |front| && Lists(front[i], key, m);
        assert ds[i] == front[i];
      }
      if ListedIn(ds, key, m) {
        var i :| 0 <= i < |ds| && Lists(ds[i], key, m);
        if i < |front| {
          assert ds[i] == front[i];
        }
      }
    }
  }

  /** The merged map lists `m` under `key` exactly when one of the inputs does. */
  lemma MergedListsIffListedIn<K(!new), M>(ds: seq<Dict<K, seq<M>>>, key: K, m: M)
    ensures Lists(MergeDictionaries(ds), key, m) <==> ListedIn(ds, key, m)
  {
    MergeDictionariesKeys(ds);
    MergeDictionariesGet(ds, key);
    ListsIsGet(MergeDictionaries(ds), key, m);
    AllValuesOfLists(ds, key, m);
    if key !in AllKeys(ds) {
      AllValuesOfAbsentKey(ds, key);
    }
  }

  /*
   * The graph.
   */

  /** The producer maps, merged in this order: publishers, responders, senders, response senders. */
  function ProducerMaps(info: MessageFlowInformation): seq<HandlerMessages> {
    [info.publishers, info.responders, info.senders, info.responseSenders]
  }

  /** The consumer maps, merged in this order: consumer implementations, response receivers. */
  function ConsumerMaps(info: MessageFlowInformation): seq<HandlerMessages> {
    [info.consumerImplementations, info.responseReceivers]
  }

  /** `p` publishes, responds with or sends `m`, by some observation. */
  ghost predicate Sends(info: MessageFlowInformation, p: Handler, m: Message) {
    ListedIn(ProducerMaps(info), p, m)
  }

  /** `c` consumes or receives as a response a message named like `m`, by some observation. */
  ghost predicate Handles(info: MessageFlowInformation, c: Handler, m: Message) {
    ListedIn(ConsumerMaps(info), c, m)
  }

  /**
   * `LookupMessageConsumerClasses`: the consumer keys whose list holds a
   * message named like `m`, in enumeration order, each once.
   */
  function LookupMessageConsumerClasses(m: Message, consumers: HandlerMessages): (r: seq<Handler>)
    ensures NoDuplicates(r)
    ensures forall c :: c in r <==> Lists(consumers, c, m)
  {
    Distinct(KeysListing(consumers, m))
  }

  /**
   * `allMessageHandlers.First(handler => handler.Equals(h))`: the stored
   * handler equal to `h`, which by name identity is `h` itself.
   */
  function Canonical(all: seq<Handler>, h: Handler): (r: Handler)
    requires h in all
    ensures r == h
  {
    all[FirstIndex(all, h)]
  }

  /** The innermost loop: one edge `p -> c` tagged `m` per consumer `c` of `consumers`, in order. */
  function ConsumerEdges(all: seq<Handler>, p: Handler, m: Message, consumers: seq<Handler>): (r: seq<Edge<Handler, Message>>)
    requires p in all && forall c :: c in consumers ==> c in all
    ensures forall e :: e in r <==> e.source == p && e.tag == m && e.target in consumers
  {
    var r := seq(|consumers|, i requires 0 <= i < |consumers| => Edge(Canonical(all, p), Canonical(all, consumers[i]), m));
    assert forall c :: c in consumers ==> Edge(p, c, m) in r by {
      forall c | c in consumers ensures Edge(p, c, m) in r {
        var i :| 0 <= i < |consumers| && consumers[i] == c;
        assert r[i] == Edge(p, c, m);
      }
    }
    r
  }

  /** The middle loop: the edges for every message `p` sends, in order. */
  function MessageEdges(all: seq<Handler>, p: Handler, sent: seq<Message>, consumers: HandlerMessages): (r: seq<Edge<Handler, Message>>)
    requires p in all && forall c :: c in Keys(consumers) ==> c in all
    ensures forall e :: e in r <==> e.source == p && e.tag in sent && Lists(consumers, e.target, e.tag)
    decreases |sent|
  {
    if sent == [] then []
    else
      var m := sent[|sent| - 1];
      var cs := LookupMessageConsumerClasses(m, consumers);
      assert forall c :: c in cs ==> c in all by {
        forall c | c in cs ensures c in all {
          var i :| 0 <= i < |consumers| && consumers[i].0 == c && m in consumers[i].1;
          assert Keys(consumers)[i] == c;
        }
      }
      assert sent == sent[..|sent| - 1] + [m];
      MessageEdges(all, p, sent[..|sent| - 1], consumers) + ConsumerEdges(all, p, m, cs)
  }

  /** The outer loop: the edges for every producer entry, in enumeration order. */
  function ProducerEdges(all: seq<Handler>, producers: HandlerMessages, consumers: HandlerMessages): (r: seq<Edge<Handler, Message>>)
    requires forall p :: p in Keys(producers) ==> p in all
    requires forall c :: c in Keys(consumers) ==> c in all
    decreases |producers|
  {
    if producers == [] then []
    else
      var last := producers[|producers| - 1];
      assert Keys(producers)[|producers| - 1] == last.0;
      ProducerEdges(all, producers[..|producers| - 1], consumers) + MessageEdges(all, last.0, last.1, consumers)
  }

  /** The candidate edges are exactly the (producer, consumer, message) matches of the two maps. */
  lemma {:induction false} ProducerEdgesAreMatches(all: seq<Handler>, producers: HandlerMessages, consumers: HandlerMessages, e: Edge<Handler, Message>)
    requires forall p :: p in Keys(producers) ==> p in all
    requires forall c :: c in Keys(consumers) ==> c in all
    ensures e in ProducerEdges(all, producers, consumers) <==>
      Lists(producers, e.source, e.tag) && Lists(consumers, e.target, e.tag)
    decreases |producers|
  {
    if producers != [] {
      var front, last := producers[..|producers| - 1], producers[|producers| - 1];
      assert forall i :: 0 <= i < |front| ==> Keys(front)[i] == Keys(producers)[i];
      ProducerEdgesAreMatches(all, front, consumers, e);
      var mine := MessageEdges(all, last.0, last.1, consumers);
      assert e in ProducerEdges(all, producers, consumers) <==> e in ProducerEdges(all, front, consumers) || e in mine;
      ListsOfSnoc(producers, e.source, e.tag);
    }
  }

  /**
   * `ConvertToGraph`: the merged producer and consumer maps joined on
   * message names, every match added with `AddVerticesAndEdge` to a graph
   * that disallows parallel edges.
   */
  function ConvertToGraph(info: MessageFlowInformation): Graph<Handler, Message> {
    var producers := MergeDictionaries(ProducerMaps(info));
    var consumers := MergeDictionaries(ConsumerMaps(info));
    var all := Distinct(Keys(producers) + Keys(consumers));
    AddEdges(EmptyGraph(false), ProducerEdges(all, producers, consumers))
  }

  /** The producer and consumer keys are the handlers `allMessageHandlers` is built from. */
  lemma KeysAreAllHandlers(producers: HandlerMessages, consumers: HandlerMessages)
    ensures var all := Distinct(Keys(producers) + Keys(consumers));
      && (forall p :: p in Keys(producers) ==> p in all)
      && (forall c :: c in Keys(consumers) ==> c in all)
  {
  }

  /**
   * The converted graph joins every pair at most once, stores each vertex
   * once, and its vertices are exactly the endpoints of its edges: a
   * handler that matches nothing is not in it.
   */
  lemma ConvertedGraphShape(info: MessageFlowInformation)
    ensures var g := ConvertToGraph(info);
      && !g.allowParallelEdges
      && NoParallelEdges(g)
      && WellFormed(g)
      && VertexSet(g) == Endpoints(g.edges)
  {
    var producers := MergeDictionaries(ProducerMaps(info));
    var consumers := MergeDictionaries(ConsumerMaps(info));
    var all := Distinct(Keys(producers) + Keys(consumers));
    AddEdgesToEmpty(ProducerEdges(all, producers, consumers));
  }

  /** Every edge `p -> c` tagged `m` has `p` sending `m` and `c` handling a message named like `m`. */
  lemma ConvertedEdgesAreMatches(info: MessageFlowInformation)
    ensures forall e :: e in ConvertToGraph(info).edges ==> Sends(info, e.source, e.tag) && Handles(info, e.target, e.tag)
  {
    var producers := MergeDictionaries(ProducerMaps(info));
    var consumers := MergeDictionaries(ConsumerMaps(info));
    var all := Distinct(Keys(producers) + Keys(consumers));
    KeysAreAllHandlers(producers, consumers);
    var es := ProducerEdges(all, producers, consumers);
    AddEdgesStoresOnlyGiven(EmptyGraph(false), es);
    forall e | e in ConvertToGraph(info).edges ensures Sends(info, e.source, e.tag) && Handles(info, e.target, e.tag) {
      ProducerEdgesAreMatches(all, producers, consumers, e);
      MergedListsIffListedIn(ProducerMaps(info), e.source, e.tag);
      MergedListsIffListedIn(ConsumerMaps(info), e.target, e.tag);
    }
  }

  /** Whenever `p` sends `m` and `c` handles a message named like `m`, the graph joins `p` to `c`. */
  lemma ConvertedGraphJoinsEveryMatch(info: MessageFlowInformation)
    ensures forall p, c, m :: Sends(info, p, m) && Handles(info, c, m) ==> ContainsEdge(ConvertToGraph(info), p, c)
  {
    var producers := MergeDictionaries(ProducerMaps(info));
    var consumers := MergeDictionaries(ConsumerMaps(info));
    var all := Distinct(Keys(producers) + Keys(consumers));
    KeysAreAllHandlers(producers, consumers);
    var es := ProducerEdges(all, producers, consumers);
    AddEdgesJoinsEveryPair(EmptyGraph(false), es);
    forall p, c, m | Sends(info, p, m) && Handles(info, c, m) ensures ContainsEdge(ConvertToGraph(info), p, c) {
      MergedListsIffListedIn(ProducerMaps(info), p, m);
      MergedListsIffListedIn(ConsumerMaps(info), c, m);
      ProducerEdgesAreMatches(all, producers, consumers, Edge(p, c, m));
    }
  }

  /** A sent message no consumer handles yields no edge. */
  lemma UnhandledMessageAddsNoEdge(info: MessageFlowInformation, m: Message)
    requires forall c :: !Handles(info, c, m)
    ensures forall e :: e in ConvertToGraph(info).edges ==> e.tag != m
  {
    ConvertedEdgesAreMatches(info);
  }

  /**
   * Two messages `p` sends and `c` handles still join `p` to `c` by one
   * edge only: the graph disallows parallel edges, so the edge of the
   * second message is dropped.
   */
  lemma SharedMessagesGiveOneEdge(info: MessageFlowInformation, p: Handler, c: Handler, m1: Message, m2: Message)
    requires Sends(info, p, m1) && Handles(info, c, m1)
    requires Sends(info, p, m2) && Handles(info, c, m2)
    ensures var edges := ConvertToGraph(info).edges;
      exists i :: 0 <= i < |edges| && edges[i].source == p && edges[i].target == c &&
        (forall j :: 0 <= j < |edges| && edges[j].source == p && edges[j].target == c ==> j == i)
  {
    ConvertedGraphJoinsEveryMatch(info);
    ConvertedGraphShape(info);
    OneEdgePerPair(ConvertToGraph(info), p, c);
  }
}

=== FILE: diagram_base.dfy ===
/**
 * The string helpers every diagram generator shares: splitting a full
 * class name at its last dot, and looking up the classes that consume a
 * message in a class-to-message-names dictionary.
 */
module DiagramBase {
  import opened Wrappers
  import opened ExtensionMethods
  import opened Dictionaries

  /** `s.LastIndexOf(c)`: the position of the last `c` in `s`, or -1. */
  function LastIndexOf(s: string, c: char): (r: int)
    ensures -1 <= r < |s|
    ensures r == -1 <==> c !in s
    ensures r >= 0 ==> s[r] == c && c !in s[r + 1..]
  {
    if s == [] then -1
    else if s[|s| - 1] == c then |s| - 1
    else
      var r := LastIndexOf(s[..|s| - 1], c);
      assert s == s[..|s| - 1] + [s[|s| - 1]];
      if r >= 0 then
        assert s[r + 1..] == s[..|s| - 1][r + 1..] + [s[|s| - 1]];
        r
      else
        r
  }

  /** `segment` is the text after the last dot of `fullName`. */
  predicate IsLastSegment(fullName: string, segment: string) {
    && '.' !in segment
    && |segment| < |fullName|
    && fullName[|fullName| - |segment| - 1..] == "." + segment
  }

  /** A full class name cut at its last dot. */
  datatype SplitName = SplitName(namespaceName: string, className: string)

  /**
   * `SplitFullClassName`: the text before the last dot and the text after
   * it. For a name without a dot the index is -1 and `Substring(0, -1)`
   * throws `ArgumentOutOfRangeException`; the failure carries the name.
   */
  function SplitFullClassName(fullName: string): (r: Result<SplitName, string>)
    ensures r.Failure? <==> '.' !in fullName
    ensures r.Failure? ==> r.error == fullName
  {
    var i := LastIndexOf(fullName, '.');
    if i == -1 then Failure(fullName) else Success(SplitName(fullName[..i], fullName[i + 1..]))
  }

  /**
   * A successful split gives back the name when its parts are joined with
   * a dot, and the class part is the text after the last dot.
   */
  lemma SplitParts(fullName: string)
    requires '.' in fullName
    ensures var parts := SplitFullClassName(fullName).value;
      && parts.namespaceName + "." + parts.className == fullName
      && '.' !in parts.className
      && IsLastSegment(fullName, parts.className)
  {
    var i := LastIndexOf(fullName, '.');
    assert fullName == fullName[..i] + [fullName[i]] + fullName[i + 1..];
  }

  /** Splitting undoes joining a namespace and a dot-free class name with a dot. */
  lemma SplitJoined(namespaceName: string, className: string)
    requires '.' !in className
    ensures SplitFullClassName(namespaceName + "." + className) == Success(SplitName(namespaceName, className))
  {
    var s := namespaceName + "." + className;
    var n := |namespaceName|;
    var i := LastIndexOf(s, '.');
    assert s[n] == '.';
    assert forall k :: n < k < |s| ==> s[k] == className[k - n - 1];
    assert s[..n] == namespaceName;
    assert s[n + 1..] == className;
  }

  /**
   * `LookupMessageConsumerClasses` of the diagram generators: the keys, in
   * enumeration order, whose array holds `message` by string equality.
   */
  function LookupMessageConsumerClasses(message: string, consumersWithMessages: Dict<string, seq<string>>): (r: seq<string>)
    ensures forall c :: c in r <==> Lists(consumersWithMessages, c, message)
    ensures consumersWithMessages == [] ==> r == []
  {
    KeysListing(consumersWithMessages, message)
  }

  /** A dictionary's lookup lists each consumer class at most once. */
  lemma LookupListsEachClassOnce(message: string, consumersWithMessages: Dict<string, seq<string>>)
    requires IsDictionary(consumersWithMessages)
    ensures NoDuplicates(LookupMessageConsumerClasses(message, consumersWithMessages))
  {
    KeysListingHasNoDuplicates(consumersWithMessages, message);
  }
}

=== FILE: dictionaries.dfy ===
/**
 * .NET dictionaries as association lists. A `Dictionary<K, V>` that is
 * never removed from enumerates its entries in insertion order, and the
 * order matters here: it decides the order of graph edges and DOT lines.
 */
module Dictionaries {
  import opened Wrappers
  import opened ExtensionMethods

  /** The entries of a dictionary in enumeration order. */
  type Dict<K, V> = seq<(K, V)>

  function Keys<K, V>(d: Dict<K, V>): (ks: seq<K>)
    ensures |ks| == |d|
    ensures forall i :: 0 <= i < |d| ==> ks[i] == d[i].0
  {
    seq(|d|, i requires 0 <= i < |d| => d[i].0)
  }

  /** A dictionary proper: no key occurs twice. */
  predicate IsDictionary<K(==), V>(d: Dict<K, V>) {
    NoDuplicates(Keys(d))
  }

  /** `TryGetValue`: the value stored under `key`, if any. */
  function Get<K(==), V>(d: Dict<K, V>, key: K): Option<V> {
    if key in Keys(d) then Some(d[FirstIndex(Keys(d), key)].1) else None
  }

  /**
   * The indexer setter `d[key] = value`: replaces the value of an existing
   * key in place and appends a new key at the end.
   */
  function Put<K(==), V>(d: Dict<K, V>, key: K, value: V): (r: Dict<K, V>)
    ensures Keys(r) == AddIfNotExist(Keys(d), key)
    ensures Get(r, key) == Some(value)
    ensures forall k :: k in Keys(d) && k != key ==> Get(r, k) == Get(d, k)
  {
    if key in Keys(d) then
      var i := FirstIndex(Keys(d), key);
      var r := d[i := (key, value)];
      assert Keys(r) == Keys(d);
      r
    else
      var r := d + [(key, value)];
      assert Keys(r) == Keys(d) + [key];
      forall k | k != key && k in Keys(d)
        ensures FirstIndex(Keys(r), k) == FirstIndex(Keys(d), k)
      {
        FirstIndexOfPrefix(Keys(d), [key], k);
      }
      r
  }

  /** The list stored under `key`, or the empty list when the key is absent. */
  function Current<K(==), M>(acc: Dict<K, seq<M>>, key: K): seq<M> {
    match Get(acc, key)
    case Some(l) => l
    case None => []
  }

  /** The values of every entry whose key is `key`, concatenated in order. */
  function ValuesOf<K(==), M>(d: Dict<K, seq<M>>, key: K): seq<M> {
    if d == [] then []
    else ValuesOf(d[..|d| - 1], key) + (if d[|d| - 1].0 == key then d[|d| - 1].1 else [])
  }

  /** Some entry stores `key` with a value that lists `m`. */
  ghost predicate Lists<K, M>(d: Dict<K, seq<M>>, key: K, m: M) {
    exists i :: 0 <= i < |d| && d[i].0 == key && m in d[i].1
  }

  /**
   * The keys, in enumeration order, whose value lists `m`: the
   * `Where(kv => kv.Value.Any(x => x == m)).Select(kv => kv.Key)` query
   * both lookups of consumers are built on.
   */
  function KeysListing<K(!new), M(==)>(d: Dict<K, seq<M>>, m: M): (r: seq<K>)
    ensures forall k :: k in r <==> Lists(d, k, m)
    ensures d == [] ==> r == []
    ensures |r| <= |d|
  {
    if d == [] then []
    else
      var r := KeysListing(d[..|d| - 1], m) + (if m in d[|d| - 1].1 then [d[|d| - 1].0] else []);
      assert forall i :: 0 <= i < |d| - 1 ==> d[..|d| - 1][i] == d[i];
      r
  }

  /** In a dictionary proper no key is listed twice by `KeysListing`. */
  lemma {:induction false} KeysListingHasNoDuplicates<K(!new), M>(d: Dict<K, seq<M>>, m: M)
    requires IsDictionary(d)
    ensures NoDuplicates(KeysListing(d, m))
    decreases |d|
  {
    if d != [] {
      var p := d[..|d| - 1];
      assert Keys(p) == Keys(d)[..|d| - 1];
      assert IsDictionary(p);
      KeysListingHasNoDuplicates(p, m);
      var last := d[|d| - 1].0;
      assert last !in Keys(p) by {
        forall i | 0 <= i < |p| ensures Keys(p)[i] != last {
          assert Keys(p)[i] == Keys(d)[i];
        }
      }
      forall k | k in KeysListing(p, m) ensures k in Keys(p) {
        var i :| 0 <= i < |p| && p[i].0 == k && m in p[i].1;
        assert Keys(p)[i] == k;
      }
    }
  }

  /** In a dictionary proper, some entry lists `m` under `key` exactly when the value `Get` finds lists it. */
  lemma ListsIsGet<K(!new), M>(d: Dict<K, seq<M>>, key: K, m: M)
    requires IsDictionary(d)
    ensures Lists(d, key, m) <==> Get(d, key).Some? && m in Get(d, key).value
  {
    if Lists(d, key, m) {
      var i :| 0 <= i < |d| && d[i].0 == key && m in d[i].1;
      assert Keys(d)[i] == key;
      var j := FirstIndex(Keys(d), key);
      assert i == j;
    }
    if key in Keys(d) {
      var j := FirstIndex(Keys(d), key);
      assert d[j].0 == key;
    }
  }

  /** `ValuesOf` collects exactly the messages some entry lists under `key`. */
  lemma {:induction false} ValuesOfLists<K, M>(d: Dict<K, seq<M>>, key: K, m: M)
    ensures m in ValuesOf(d, key) <==> Lists(d, key, m)
    decreases |d|
  {
    if d != [] {
      var front := d[..|d| - 1];
      ValuesOfLists(front, key, m);
      ListsOfSnoc(d, key, m);
    }
  }

  /** An entry lists `m` under `key` in `d` exactly when one of its earlier entries or its last entry does. */
  lemma ListsOfSnoc<K, M>(d: Dict<K, seq<M>>, key: K, m: M)
    requires d != []
    ensures Lists(d, key, m) <==>
      Lists(d[..|d| - 1], key, m) || (d[|d| - 1].0 == key && m in d[|d| - 1].1)
  {
    var front := d[..|d| - 1];
    if Lists(front, key, m) {
      var i :| 0 <= i < |front| && front[i].0 == key && m in front[i].1;
      assert d[i] == front[i];
    }
    if Lists(d, key, m) {
      var i :| 0 <= i < |d| && d[i].0 == key && m in d[i].1;
      if i < |front| {
        assert d[i] == front[i];
      }
    }
  }

  /** A key some entry lists a message under is a key of the dictionary. */
  lemma ListsKey<K, M>(d: Dict<K, seq<M>>, key: K, m: M)
    requires Lists(d, key, m)
    ensures key in Keys(d)
  {
    var i :| 0 <= i < |d| && d[i].0 == key && m in d[i].1;
    assert Keys(d)[i] == key;
  }

  /** In a dictionary proper, `Get` finds every entry under its own key. */
  lemma EntryIsGet<K, V>(d: Dict<K, V>, i: nat)
    requires IsDictionary(d) && i < |d|
    ensures Get(d, d[i].0) == Some(d[i].1)
  {
    assert Keys(d)[i] == d[i].0;
    assert FirstIndex(Keys(d), d[i].0) == i;
  }

  /** What `Get` finds is stored in some entry under that key. */
  lemma GetIsEntry<K, V>(d: Dict<K, V>, key: K) returns (i: nat)
    requires Get(d, key).Some?
    ensures i < |d| && d[i].0 == key && d[i].1 == Get(d, key).value
  {
    i := FirstIndex(Keys(d), key);
    assert Keys(d)[i] == key;
  }

  /** After `Put`, `Get` finds the new value under its key and the old value under every other. */
  lemma GetAfterPut<K, V>(d: Dict<K, V>, key: K, value: V, k: K)
    ensures Get(Put(d, key, value), k) == if k == key then Some(value) else Get(d, k)
  {
    if k != key && k !in Keys(d) {
      assert k !in Keys(Put(d, key, value));
    }
  }
}

=== FILE: dot_generator.dfy ===
/**
 * The Graphviz DOT generator. From a producer dictionary (class to the
 * messages it sends) and a consumer dictionary (class to the messages it
 * handles) it lists one match per producer, sent message and consuming
 * class, groups the classes of the matches into one cluster per module,
 * colours each class by its module's position in the module list, and
 * emits the DOT statements: a fixed header, the clusters with their
 * nodes, one labelled edge per match and a closing brace.
 *
 * The output is a sequence of lines. Header, cluster and closing lines are
 * their text; a node line keeps the parts of its HTML-like label (class,
 * colour, namespace, short name) rather than the markup; an edge line keeps
 * its two classes and its label.
 */
module DotGenerator {
  import opened Wrappers
  import opened ExtensionMethods
  import opened Dictionaries
  import opened ModuleNames
  import opened DiagramBase

  /*
   * Module list and colours.
   */

  /** The `System.Drawing` colours the generator uses. */
  datatype Color =
    | LightBlue | DarkCyan | SandyBrown | GreenYellow | LightPink
    | Green | DarkGray | Magenta | Aquamarine | White
    | Red

  /** `colorsForModules`: the colour of the module at index `i` is the one at `i` modulo ten. */
  const Palette: seq<Color> :=
    [LightBlue, DarkCyan, SandyBrown, GreenYellow, LightPink, Green, DarkGray, Magenta, Aquamarine, White]

  /** The position of a colour in the palette; 10 for red, which is not in it. */
  function PaletteIndex(c: Color): nat {
    match c
    case LightBlue => 0
    case DarkCyan => 1
    case SandyBrown => 2
    case GreenYellow => 3
    case LightPink => 4
    case Green => 5
    case DarkGray => 6
    case Magenta => 7
    case Aquamarine => 8
    case White => 9
    case Red => 10
  }

  /** No colour occurs twice in the palette. */
  lemma PaletteIndexInverts(k: nat)
    requires k < |Palette|
    ensures PaletteIndex(Palette[k]) == k
  {
  }

  /** Class full name to the full names of the messages it sends, or handles. */
  type ClassMessages = Dict<string, seq<string>>

  /** The module name of every class, in order. */
  function ModulesOf(names: seq<string>): (r: seq<string>)
    ensures |r| == |names|
    ensures forall i :: 0 <= i < |names| ==> r[i] == GetModuleName(names[i])
  {
    seq(|names|, i requires 0 <= i < |names| => GetModuleName(names[i]))
  }

  lemma ModulesOfSnoc(names: seq<string>, x: string)
    ensures ModulesOf(names + [x]) == ModulesOf(names) + [GetModuleName(x)]
  {
  }

  lemma ModuleOfMember(names: seq<string>, i: nat)
    requires i < |names|
    ensures GetModuleName(names[i]) in ModulesOf(names)
  {
    assert ModulesOf(names)[i] == GetModuleName(names[i]);
  }

  /**
   * `ExtractModuleNames`: the module name of every class, duplicates
   * dropped, first occurrences in order.
   */
  function ExtractModuleNames(fullClassNames: seq<string>): (r: seq<string>)
    ensures NoDuplicates(r)
    ensures forall n :: n in fullClassNames ==> GetModuleName(n) in r
    ensures forall m :: m in r ==> exists i :: 0 <= i < |fullClassNames| && GetModuleName(fullClassNames[i]) == m
  {
    var r := Distinct(ModulesOf(fullClassNames));
    forall n | n in fullClassNames ensures GetModuleName(n) in r {
      var i :| 0 <= i < |fullClassNames| && fullClassNames[i] == n;
      ModuleOfMember(fullClassNames, i);
    }
    r
  }

  /** Deduplicating the classes first does not change the module list. */
  lemma {:induction false} ModulesOfDistinct(s: seq<string>)
    ensures Distinct(ModulesOf(Distinct(s))) == Distinct(ModulesOf(s))
    decreases |s|
  {
    if s != [] {
      var p := s[..|s| - 1];
      var x := s[|s| - 1];
      assert s == p + [x];
      ModulesOfDistinct(p);
      DistinctSnoc(p, x);
      ModulesOfSnoc(p, x);
      DistinctSnoc(ModulesOf(p), GetModuleName(x));
      if x in p {
        var i :| 0 <= i < |p| && p[i] == x;
        ModuleOfMember(p, i);
      } else {
        ModulesOfSnoc(Distinct(p), x);
        DistinctSnoc(ModulesOf(Distinct(p)), GetModuleName(x));
      }
    }
  }

  /** The module list `Generate` computes from the keys of both dictionaries. */
  function ModuleList(producers: ClassMessages, consumers: ClassMessages): seq<string> {
    ExtractModuleNames(Union(Keys(producers), Keys(consumers)))
  }

  /**
   * The module list is the module names of the producer classes followed by
   * the consumer classes, duplicates dropped, first occurrences in order.
   */
  lemma ModuleListOrder(producers: ClassMessages, consumers: ClassMessages)
    ensures ModuleList(producers, consumers) == Distinct(ModulesOf(Keys(producers) + Keys(consumers)))
  {
    ModulesOfDistinct(Keys(producers) + Keys(consumers));
  }

  /**
   * `GetNamespaceColor`: the palette colour at the position of the class's
   * module in the module list, modulo the palette size; red when
   * `FindIndex` finds no such module.
   */
  function GetNamespaceColor(modules: seq<string>, fullClassName: string): (r: Color)
    ensures r == Red <==> GetModuleName(fullClassName) !in modules
    ensures r != Red ==> r in Palette
  {
    var m := GetModuleName(fullClassName);
    if m in modules then Palette[FirstIndex(modules, m) % |Palette|] else Red
  }

  /** In a duplicate-free module list, the class of the module at index `i` gets palette colour `i` modulo ten. */
  lemma ColorOfModuleAt(modules: seq<string>, fullClassName: string, i: nat)
    requires NoDuplicates(modules) && i < |modules|
    requires modules[i] == GetModuleName(fullClassName)
    ensures GetNamespaceColor(modules, fullClassName) == Palette[i % 10]
  {
    assert FirstIndex(modules, modules[i]) == i;
  }

  /** Two listed modules share a colour exactly when their positions are equal modulo ten. */
  lemma ColorsRepeatEveryTenModules(modules: seq<string>, a: string, b: string, i: nat, j: nat)
    requires NoDuplicates(modules) && i < |modules| && j < |modules|
    requires modules[i] == GetModuleName(a) && modules[j] == GetModuleName(b)
    ensures GetNamespaceColor(modules, a) == GetNamespaceColor(modules, b) <==> i % 10 == j % 10
  {
    ColorOfModuleAt(modules, a, i);
    ColorOfModuleAt(modules, b, j);
    PaletteIndexInverts(i % 10);
    PaletteIndexInverts(j % 10);
  }

  /*
   * Matches.
   */

  /** One `messages.Add((producer, consumer, message))` of the collection loop. */
  datatype Triple = Triple(producer: string, consumer: string, message: string)

  /** The matches of one sent message: one per consuming class, in lookup order. */
  function MessageTriples(producer: string, message: string, consumerNames: seq<string>): (r: seq<Triple>)
    ensures |r| == |consumerNames|
    ensures forall i :: 0 <= i < |r| ==> r[i] == Triple(producer, consumerNames[i], message)
  {
    seq(|consumerNames|, i requires 0 <= i < |consumerNames| => Triple(producer, consumerNames[i], message))
  }

  /** The matches of every message one producer sends, in order. */
  function ProducerTriples(producer: string, sent: seq<string>, consumers: ClassMessages): seq<Triple>
    decreases |sent|
  {
    if sent == [] then []
    else
      var message := sent[|sent| - 1];
      ProducerTriples(producer, sent[..|sent| - 1], consumers)
        + MessageTriples(producer, message, LookupMessageConsumerClasses(message, consumers))
  }

  /** The `messages` list the collection loop of `Generate` fills: every producer's matches, in order. */
  function Triples(producers: ClassMessages, consumers: ClassMessages): seq<Triple>
    decreases |producers|
  {
    if producers == [] then []
    else
      var last := producers[|producers| - 1];
      Triples(producers[..|producers| - 1], consumers) + ProducerTriples(last.0, last.1, consumers)
  }

  lemma MessageTriplesMembers(producer: string, message: string, consumerNames: seq<string>, t: Triple)
    ensures t in MessageTriples(producer, message, consumerNames) <==>
      t.producer == producer && t.message == message && t.consumer in consumerNames
  {
    if t.producer == producer && t.message == message && t.consumer in consumerNames {
      var i :| 0 <= i < |consumerNames| && consumerNames[i] == t.consumer;
      assert MessageTriples(producer, message, consumerNames)[i] == t;
    }
  }

  lemma {:induction false} ProducerTriplesMembers(producer: string, sent: seq<string>, consumers: ClassMessages, t: Triple)
    ensures t in ProducerTriples(producer, sent, consumers) <==>
      t.producer == producer && t.message in sent && Lists(consumers, t.consumer, t.message)
    decreases |sent|
  {
    if sent != [] {
      var front := sent[..|sent| - 1];
      var message := sent[|sent| - 1];
      ProducerTriplesMembers(producer, front, consumers, t);
      MessageTriplesMembers(producer, message, LookupMessageConsumerClasses(message, consumers), t);
      assert sent == front + [message];
    }
  }

  /**
   * A triple is listed exactly when some producer entry sends its message
   * and some consumer entry's array holds that message by string equality.
   */
  lemma {:induction false} TriplesAreMatches(producers: ClassMessages, consumers: ClassMessages, t: Triple)
    ensures t in Triples(producers, consumers) <==>
      Lists(producers, t.producer, t.message) && Lists(consumers, t.consumer, t.message)
    decreases |producers|
  {
    if producers != [] {
      var front := producers[..|producers| - 1];
      var last := producers[|producers| - 1];
      TriplesAreMatches(front, consumers, t);
      ProducerTriplesMembers(last.0, last.1, consumers, t);
      ListsOfSnoc(producers, t.producer, t.message);
    }
  }

  lemma {:induction false} ProducerTriplesOnce(producer: string, sent: seq<string>, consumers: ClassMessages)
    requires NoDuplicates(sent) && IsDictionary(consumers)
    ensures NoDuplicates(ProducerTriples(producer, sent, consumers))
    decreases |sent|
  {
    if sent != [] {
      var front := sent[..|sent| - 1];
      var message := sent[|sent| - 1];
      var names := LookupMessageConsumerClasses(message, consumers);
      assert NoDuplicates(front);
      ProducerTriplesOnce(producer, front, consumers);
      LookupListsEachClassOnce(message, consumers);
      var a := ProducerTriples(producer, front, consumers);
      var b := MessageTriples(producer, message, names);
      forall t | t in a ensures t !in b {
        ProducerTriplesMembers(producer, front, consumers, t);
        assert message !in front;
      }
      NoDuplicatesConcat(a, b);
    }
  }

  /**
   * For dictionaries proper whose producers list each sent message once,
   * no match is listed twice, so there is exactly one edge statement per
   * match.
   */
  lemma {:induction false} TriplesOnce(producers: ClassMessages, consumers: ClassMessages)
    requires IsDictionary(producers) && IsDictionary(consumers)
    requires forall i :: 0 <= i < |producers| ==> NoDuplicates(producers[i].1)
    ensures NoDuplicates(Triples(producers, consumers))
    decreases |producers|
  {
    if producers != [] {
      var front := producers[..|producers| - 1];
      var last := producers[|producers| - 1];
      assert Keys(front) == Keys(producers)[..|producers| - 1];
      TriplesOnce(front, consumers);
      ProducerTriplesOnce(last.0, last.1, consumers);
      var a := Triples(front, consumers);
      var b := ProducerTriples(last.0, last.1, consumers);
      assert last.0 !in Keys(front) by {
        assert Keys(producers)[|producers| - 1] == last.0;
      }
      forall t | t in a ensures t !in b {
        TriplesAreMatches(front, consumers, t);
        ListsKey(front, t.producer, t.message);
        ProducerTriplesMembers(last.0, last.1, consumers, t);
      }
      NoDuplicatesConcat(a, b);
    }
  }

  /*
   * Clusters.
   */

  /** `x` is the producer or the consumer of some match. */
  ghost predicate IsEndpoint(triples: seq<Triple>, x: string) {
    exists t :: t in triples && (t.producer == x || t.consumer == x)
  }

  /**
   * The classes the loop adds to clusters for one sent message: the
   * producer once if the message has any consumer, then every consumer.
   */
  function MessageAdditions(producer: string, consumerNames: seq<string>): seq<string> {
    (if consumerNames != [] then [producer] else []) + consumerNames
  }

  function ProducerAdditions(producer: string, sent: seq<string>, consumers: ClassMessages): seq<string>
    decreases |sent|
  {
    if sent == [] then []
    else
      var message := sent[|sent| - 1];
      ProducerAdditions(producer, sent[..|sent| - 1], consumers)
        + MessageAdditions(producer, LookupMessageConsumerClasses(message, consumers))
  }

  /** Every class the collection loop adds to a cluster, in order, repetitions included. */
  function Additions(producers: ClassMessages, consumers: ClassMessages): seq<string>
    decreases |producers|
  {
    if producers == [] then []
    else
      var last := producers[|producers| - 1];
      Additions(producers[..|producers| - 1], consumers) + ProducerAdditions(last.0, last.1, consumers)
  }

  lemma EndpointConcat(a: seq<Triple>, b: seq<Triple>, x: string)
    ensures IsEndpoint(a + b, x) <==> IsEndpoint(a, x) || IsEndpoint(b, x)
  {
    if IsEndpoint(a + b, x) {
      var t :| t in a + b && (t.producer == x || t.consumer == x);
      assert t in a || t in b;
    }
    if IsEndpoint(a, x) {
      var t :| t in a && (t.producer == x || t.consumer == x);
      assert t in a + b;
    }
    if IsEndpoint(b, x) {
      var t :| t in b && (t.producer == x || t.consumer == x);
      assert t in a + b;
    }
  }

  lemma MessageAdditionsAreEndpoints(producer: string, message: string, consumerNames: seq<string>, x: string)
    ensures x in MessageAdditions(producer, consumerNames) <==> IsEndpoint(MessageTriples(producer, message, consumerNames), x)
  {
    var ts := MessageTriples(producer, message, consumerNames);
    if x in MessageAdditions(producer, consumerNames) {
      if consumerNames != [] && x == producer {
        assert ts[0] in ts;
      } else {
        var i :| 0 <= i < |consumerNames| && consumerNames[i] == x;
        assert ts[i] in ts;
      }
    }
    if IsEndpoint(ts, x) {
      var t :| t in ts && (t.producer == x || t.consumer == x);
      MessageTriplesMembers(producer, message, consumerNames, t);
    }
  }

  lemma {:induction false} ProducerAdditionsAreEndpoints(producer: string, sent: seq<string>, consumers: ClassMessages, x: string)
    ensures x in ProducerAdditions(producer, sent, consumers) <==> IsEndpoint(ProducerTriples(producer, sent, consumers), x)
    decreases |sent|
  {
    if sent != [] {
      var front := sent[..|sent| - 1];
      var message := sent[|sent| - 1];
      var names := LookupMessageConsumerClasses(message, consumers);
      ProducerAdditionsAreEndpoints(producer, front, consumers, x);
      MessageAdditionsAreEndpoints(producer, message, names, x);
      EndpointConcat(ProducerTriples(producer, front, consumers), MessageTriples(producer, message, names), x);
    }
  }

  /** The classes added to clusters are exactly the producers and consumers of the matches. */
  lemma {:induction false} AdditionsAreEndpoints(producers: ClassMessages, consumers: ClassMessages, x: string)
    ensures x in Additions(producers, consumers) <==> IsEndpoint(Triples(producers, consumers), x)
    decreases |producers|
  {
    if producers != [] {
      var front := producers[..|producers| - 1];
      var last := producers[|producers| - 1];
      AdditionsAreEndpoints(front, consumers, x);
      ProducerAdditionsAreEndpoints(last.0, last.1, consumers, x);
      EndpointConcat(Triples(front, consumers), ProducerTriples(last.0, last.1, consumers), x);
    }
  }

  /** `classListByModules.AddOrUpdate`: a new cluster holding the class, or the class appended to its module's cluster. */
  function AddToCluster(clusters: ClassMessages, className: string): ClassMessages {
    var m := GetModuleName(className);
    Put(clusters, m, Current(clusters, m) + [className])
  }

  /** The clusters after adding every class in turn, starting from no cluster. */
  function Clusters(additions: seq<string>): ClassMessages
    decreases |additions|
  {
    if additions == [] then []
    else AddToCluster(Clusters(additions[..|additions| - 1]), additions[|additions| - 1])
  }

  /** The classes of `names` whose module is `moduleName`, in order, repetitions included. */
  function InModule(names: seq<string>, moduleName: string): (r: seq<string>)
    ensures |r| <= |names|
    decreases |names|
  {
    if names == [] then []
    else
      var x := names[|names| - 1];
      InModule(names[..|names| - 1], moduleName) + (if GetModuleName(x) == moduleName then [x] else [])
  }

  lemma {:induction false} InModuleMembers(names: seq<string>, moduleName: string, x: string)
    ensures x in InModule(names, moduleName) <==> x in names && GetModuleName(x) == moduleName
    decreases |names|
  {
    if names != [] {
      var front := names[..|names| - 1];
      InModuleMembers(front, moduleName, x);
      assert names == front + [names[|names| - 1]];
    }
  }

  /** A module none of the classes belongs to has no classes. */
  lemma InModuleOfAbsent(names: seq<string>, moduleName: string)
    requires moduleName !in ModulesOf(names)
    ensures InModule(names, moduleName) == []
  {
    forall y | y in names ensures GetModuleName(y) != moduleName {
      var i :| 0 <= i < |names| && names[i] == y;
      ModuleOfMember(names, i);
    }
    if InModule(names, moduleName) != [] {
      InModuleMembers(names, moduleName, InModule(names, moduleName)[0]);
    }
  }

  /** Adding a class changes only the cluster of its own module, by appending the class. */
  lemma GetAfterAddToCluster(clusters: ClassMessages, x: string, m: string)
    ensures Get(AddToCluster(clusters, x), m) ==
      if m == GetModuleName(x) then Some(Current(clusters, m) + [x]) else Get(clusters, m)
  {
    GetAfterPut(clusters, GetModuleName(x), Current(clusters, GetModuleName(x)) + [x], m);
  }

  /** One more class changes only the cluster of its own module, by appending the class. */
  lemma GetAfterOneMore(front: seq<string>, x: string, m: string)
    ensures Get(Clusters(front + [x]), m) ==
      if m == GetModuleName(x) then Some(Current(Clusters(front), m) + [x]) else Get(Clusters(front), m)
  {
    assert (front + [x])[..|front|] == front;
    GetAfterAddToCluster(Clusters(front), x, m);
  }

  lemma InModuleSnoc(front: seq<string>, x: string, m: string)
    ensures InModule(front + [x], m) == InModule(front, m) + (if GetModuleName(x) == m then [x] else [])
  {
    assert (front + [x])[..|front|] == front;
  }

  /** The cluster of one module after one more class, given the clusters before hold the classes so far. */
  lemma ClusterStep(front: seq<string>, x: string, m: string)
    requires Get(Clusters(front), m) == if m in ModulesOf(front) then Some(InModule(front, m)) else None
    ensures Get(Clusters(front + [x]), m) ==
      if m in ModulesOf(front + [x]) then Some(InModule(front + [x], m)) else None
  {
    var before := Get(Clusters(front), m);
    var after := Get(Clusters(front + [x]), m);
    GetAfterOneMore(front, x, m);
    InModuleSnoc(front, x, m);
    ModulesOfSnoc(front, x);
    var inFront := m in ModulesOf(front);
    assert m in ModulesOf(front + [x]) <==> inFront || m == GetModuleName(x);
    if m == GetModuleName(x) {
      if inFront {
        assert Current(Clusters(front), m) == InModule(front, m);
      } else {
        InModuleOfAbsent(front, m);
        assert Current(Clusters(front), m) == [];
      }
      assert after == Some(InModule(front, m) + [x]);
    } else {
      assert after == before;
      assert InModule(front + [x], m) == InModule(front, m);
    }
  }

  /** The clusters form a dictionary with one key per module, in order of first addition. */
  lemma {:induction false} ClusterKeys(additions: seq<string>)
    ensures IsDictionary(Clusters(additions))
    ensures Keys(Clusters(additions)) == Distinct(ModulesOf(additions))
    decreases |additions|
  {
    if additions != [] {
      var front := additions[..|additions| - 1];
      var x := additions[|additions| - 1];
      ClusterKeys(front);
      assert additions == front + [x];
      ModulesOfSnoc(front, x);
      DistinctSnoc(ModulesOf(front), GetModuleName(x));
    }
  }

  /** Each module's cluster holds the classes of that module in the order they were added. */
  lemma {:induction false} ClusterContents(additions: seq<string>)
    ensures forall m :: (Get(Clusters(additions), m) ==
      if m in ModulesOf(additions) then Some(InModule(additions, m)) else None)
    decreases |additions|
  {
    if additions != [] {
      var front := additions[..|additions| - 1];
      var x := additions[|additions| - 1];
      ClusterContents(front);
      assert additions == front + [x];
      forall m ensures Get(Clusters(front + [x]), m) ==
        if m in ModulesOf(front + [x]) then Some(InModule(front + [x], m)) else None
      {
        ClusterStep(front, x, m);
      }
    }
  }

  /** `x` is listed in some cluster. */
  ghost predicate InSomeCluster(clusters: ClassMessages, x: string) {
    exists i :: 0 <= i < |clusters| && x in clusters[i].1
  }

  /** The clusters list exactly the added classes. */
  lemma ClusterMembersAreAdditions(additions: seq<string>, x: string)
    ensures InSomeCluster(Clusters(additions), x) <==> x in additions
  {
    if InSomeCluster(Clusters(additions), x) {
      ClusterMemberWasAdded(additions, x);
    }
    if x in additions {
      AddedClassIsClustered(additions, x);
    }
  }

  lemma ClusterMemberWasAdded(additions: seq<string>, x: string)
    requires InSomeCluster(Clusters(additions), x)
    ensures x in additions
  {
    var c := Clusters(additions);
    ClusterKeys(additions);
    ClusterContents(additions);
    var i :| 0 <= i < |c| && x in c[i].1;
    EntryHoldsItsModule(c, additions, i);
    InModuleMembers(additions, c[i].0, x);
  }

  /** In clusters laid out as `ClusterContents` states, each entry holds the classes of its own module. */
  lemma EntryHoldsItsModule(c: ClassMessages, additions: seq<string>, i: nat)
    requires IsDictionary(c) && i < |c|
    requires forall m :: (Get(c, m) == if m in ModulesOf(additions) then Some(InModule(additions, m)) else None)
    ensures c[i].1 == InModule(additions, c[i].0)
  {
    EntryIsGet(c, i);
  }

  lemma AddedClassIsClustered(additions: seq<string>, x: string)
    requires x in additions
    ensures InSomeCluster(Clusters(additions), x)
  {
    var c := Clusters(additions);
    ClusterContents(additions);
    var mx := GetModuleName(x);
    var j :| 0 <= j < |additions| && additions[j] == x;
    ModuleOfMember(additions, j);
    InModuleMembers(additions, mx, x);
    var i := FirstIndex(Keys(c), mx);
    assert c[i].0 == mx && c[i].1 == InModule(additions, mx);
  }

  /**
   * A class is listed in a cluster exactly when it is the producer or the
   * consumer of some match; a producer none of whose messages has a
   * consumer, and that consumes no matched message itself, is in none.
   */
  lemma ClusteredClassesAreEndpoints(producers: ClassMessages, consumers: ClassMessages, x: string)
    ensures InSomeCluster(Clusters(Additions(producers, consumers)), x) <==> IsEndpoint(Triples(producers, consumers), x)
  {
    ClusterMembersAreAdditions(Additions(producers, consumers), x);
    AdditionsAreEndpoints(producers, consumers, x);
  }

  /** Every producer and consumer of a match is listed in the cluster keyed by its own module, and no other class is. */
  lemma EndpointsAreClusteredByModule(producers: ClassMessages, consumers: ClassMessages, x: string)
    ensures var cluster := Get(Clusters(Additions(producers, consumers)), GetModuleName(x));
      cluster.Some? && x in cluster.value <==> IsEndpoint(Triples(producers, consumers), x)
  {
    var additions := Additions(producers, consumers);
    AdditionsAreEndpoints(producers, consumers, x);
    ClusterContents(additions);
    InModuleMembers(additions, GetModuleName(x), x);
    if x in additions {
      var j :| 0 <= j < |additions| && additions[j] == x;
      ModuleOfMember(additions, j);
    }
  }

  /*
   * DOT statements.
   */

  /** One line of the DOT text. */
  datatype Line =
    | Text(text: string)
      /** A class node; its HTML-like label shows the namespace on the colour and the short name below. */
    | Node(className: string, color: Color, namespaceName: string, shortName: string)
    | EdgeLine(producer: string, consumer: string, labelText: string)

  const Header: seq<Line> :=
    [Text("digraph G {"), Text("\trankdir=LR"), Text("\tnode [shape=plaintext]"), Text("\tsplines=ortho"), Text("")]

  const Footer: Line := Text("}")

  /** Every line of the header and the empty line after the clusters is plain text. */
  lemma HeaderIsText(l: Line)
    requires l in Header || l == Text("")
    ensures l.Text?
  {
  }

  /** `subgraph "cluster_<k>"`: the line that opens the block of module `k`. */
  function ClusterOpening(k: string): Line {
    Text("\tsubgraph \"cluster_" + k + "\"")
  }

  /** `label = "<k>"`: the caption of the block of module `k`. */
  function ClusterLabel(k: string): Line {
    Text("\t\tlabel = \"" + k + "\"")
  }

  /** The brace that closes a cluster block. */
  const ClusterClose: Line := Text("\t}")

  /**
   * The lines that open the cluster of module `k`: the subgraph named after
   * `k` first, its label `k` third, and no closing brace among them.
   */
  function ClusterHeader(k: string): (r: seq<Line>)
    ensures forall l :: l in r ==> l.Text?
    ensures |r| == 5 && r[0] == ClusterOpening(k) && r[2] == ClusterLabel(k)
    ensures ClusterClose !in r
  {
    [ ClusterOpening(k), Text("\t{"), ClusterLabel(k), Text("\t\tcolor = blue"), Text("\t\trank=\"same\"") ]
  }

  /**
   * `x` is drawn inside the block of module `k`: a node of `x` follows the
   * line opening `subgraph "cluster_<k>"` with no closing brace between.
   */
  ghost predicate InClusterOf(lines: seq<Line>, k: string, x: string) {
    exists i, j :: PlacedAt(lines, k, x, i, j)
  }

  /** Line `i` opens the block of module `k`, line `j` is a node of `x`, and no closing brace lies between. */
  ghost predicate PlacedAt(lines: seq<Line>, k: string, x: string, i: int, j: int) {
    && 0 <= i < j < |lines|
    && lines[i] == ClusterOpening(k)
    && lines[j].Node? && lines[j].className == x
    && forall n :: i < n < j ==> lines[n] != ClusterClose
  }

  /** Placement inside a block survives putting lines before and after. */
  lemma InClusterOfFramed(p: seq<Line>, a: seq<Line>, s: seq<Line>, k: string, x: string)
    requires InClusterOf(a, k, x)
    ensures InClusterOf(p + a + s, k, x)
  {
    var i, j :| PlacedAt(a, k, x, i, j);
    var r := p + a + s;
    assert r[|p| + i] == a[i] && r[|p| + j] == a[j];
    forall n | |p| + i < n < |p| + j ensures r[n] != ClusterClose {
      assert r[n] == a[n - |p|];
    }
    assert PlacedAt(r, k, x, |p| + i, |p| + j);
  }

  predicate AllDotted(names: seq<string>) {
    forall n :: n in names ==> '.' in n
  }

  lemma AllDottedCons(names: seq<string>)
    requires names != []
    ensures AllDotted(names) <==> '.' in names[0] && AllDotted(names[1..])
  {
    assert forall n :: n in names ==> n == names[0] || n in names[1..];
  }

  /** The node statement of a class; splitting its name throws for a name without a dot. */
  function NodeLine(modules: seq<string>, className: string): (r: Result<Line, string>)
    ensures r.Success? <==> '.' in className
    ensures r.Success? ==> r.value.Node? && r.value.className == className
    ensures r.Success? ==> r.value.color == GetNamespaceColor(modules, className)
  {
    var color := GetNamespaceColor(modules, className);
    var parts := SplitFullClassName(className);
    if parts.Failure? then Failure(parts.error)
    else Success(Node(className, color, parts.value.namespaceName, parts.value.className))
  }

  /** The node statements of one cluster, in order. */
  function NodeLines(modules: seq<string>, names: seq<string>): (r: Result<seq<Line>, string>)
    ensures r.Success? <==> AllDotted(names)
    ensures r.Success? ==> |r.value| == |names|
    decreases |names|
  {
    if names == [] then Success([])
    else
      AllDottedCons(names);
      var head := NodeLine(modules, names[0]);
      var tail := NodeLines(modules, names[1..]);
      if head.Failure? then Failure(head.error)
      else if tail.Failure? then Failure(tail.error)
      else Success([head.value] + tail.value)
  }

  /** The `i`-th node statement of a cluster is the node of its `i`-th class, in its namespace's colour. */
  lemma {:induction false} NodeLineAt(modules: seq<string>, names: seq<string>, i: nat)
    requires NodeLines(modules, names).Success? && i < |names|
    ensures var l := NodeLines(modules, names).value[i];
      l.Node? && l.className == names[i] && l.color == GetNamespaceColor(modules, names[i])
    decreases i
  {
    AllDottedCons(names);
    var head := NodeLine(modules, names[0]);
    var tail := NodeLines(modules, names[1..]);
    assert head.Success? && tail.Success?;
    assert NodeLines(modules, names).value == [head.value] + tail.value;
    if i > 0 {
      NodeLineAt(modules, names[1..], i - 1);
      assert names[1..][i - 1] == names[i];
    }
  }

  /** `x` is listed in the first cluster or in one of the others. */
  lemma InSomeClusterCons(clusters: ClassMessages, x: string)
    requires clusters != []
    ensures InSomeCluster(clusters, x) <==> x in clusters[0].1 || InSomeCluster(clusters[1..], x)
  {
    if InSomeCluster(clusters[1..], x) {
      var i :| 0 <= i < |clusters[1..]| && x in clusters[1..][i].1;
      assert clusters[i + 1] == clusters[1..][i];
    }
    if InSomeCluster(clusters, x) {
      var i :| 0 <= i < |clusters| && x in clusters[i].1;
      if i > 0 {
        assert clusters[1..][i - 1] == clusters[i];
      }
    }
  }

  /** Every cluster lists only class names with a dot. */
  ghost predicate ClustersDotted(clusters: ClassMessages) {
    forall i :: 0 <= i < |clusters| ==> AllDotted(clusters[i].1)
  }

  lemma ClustersDottedCons(clusters: ClassMessages)
    requires clusters != []
    ensures ClustersDotted(clusters) <==> AllDotted(clusters[0].1) && ClustersDotted(clusters[1..])
  {
    if AllDotted(clusters[0].1) && ClustersDotted(clusters[1..]) {
      forall i | 0 <= i < |clusters| ensures AllDotted(clusters[i].1) {
        if i > 0 {
          assert clusters[1..][i - 1] == clusters[i];
        }
      }
    }
  }

  /** Some line of `lines` is the node of class `x`, in its namespace's colour. */
  ghost predicate DrawsNode(lines: seq<Line>, modules: seq<string>, x: string) {
    exists l :: l in lines && l.Node? && l.className == x && l.color == GetNamespaceColor(modules, x)
  }

  lemma DrawsNodeConcat(a: seq<Line>, b: seq<Line>, modules: seq<string>, x: string)
    ensures DrawsNode(a + b, modules, x) <==> DrawsNode(a, modules, x) || DrawsNode(b, modules, x)
  {
    if DrawsNode(a + b, modules, x) {
      var l :| l in a + b && l.Node? && l.className == x && l.color == GetNamespaceColor(modules, x);
      assert l in a || l in b;
    }
    if DrawsNode(a, modules, x) {
      var l :| l in a && l.Node? && l.className == x && l.color == GetNamespaceColor(modules, x);
      assert l in a + b;
    }
    if DrawsNode(b, modules, x) {
      var l :| l in b && l.Node? && l.className == x && l.color == GetNamespaceColor(modules, x);
      assert l in a + b;
    }
  }

  /** The block of one cluster: its opening lines, its nodes and the closing brace. */
  function ClusterBlock(modules: seq<string>, k: string, names: seq<string>): (r: Result<seq<Line>, string>)
    ensures r.Success? <==> AllDotted(names)
    ensures r.Success? ==> forall l :: l in r.value ==> !l.EdgeLine?
    ensures r.Success? ==> forall l :: l in r.value && l.Node? ==>
      l.color == GetNamespaceColor(modules, l.className) && l.className in names
    ensures r.Success? ==> forall x :: x in names ==> DrawsNode(r.value, modules, x)
    ensures r.Success? ==> forall x :: x in names ==> InClusterOf(r.value, k, x)
  {
    var nodes := NodeLines(modules, names);
    if nodes.Failure? then Failure(nodes.error)
    else
      NodeLinesAll(modules, names);
      BlockContents(modules, k, names, nodes.value);
      BlockPlacesItsNodes(modules, k, names, nodes.value);
      Success(ClusterHeader(k) + nodes.value + [ClusterClose])
  }

  /** The node statements of a cluster, all at once: the `i`-th is the node of the `i`-th class. */
  ghost predicate NodesOf(modules: seq<string>, names: seq<string>, nodes: seq<Line>) {
    && |nodes| == |names|
    && forall j :: 0 <= j < |names| ==>
      nodes[j].Node? && nodes[j].className == names[j] && nodes[j].color == GetNamespaceColor(modules, names[j])
  }

  lemma NodeLinesAll(modules: seq<string>, names: seq<string>)
    requires NodeLines(modules, names).Success?
    ensures NodesOf(modules, names, NodeLines(modules, names).value)
  {
    forall j | 0 <= j < |names| ensures
      var l := NodeLines(modules, names).value[j];
      l.Node? && l.className == names[j] && l.color == GetNamespaceColor(modules, names[j])
    {
      NodeLineAt(modules, names, j);
    }
  }

  /** A block holds no edge, and its nodes are exactly its classes, each in its namespace's colour. */
  lemma BlockContents(modules: seq<string>, k: string, names: seq<string>, nodes: seq<Line>)
    requires NodesOf(modules, names, nodes)
    ensures var r := ClusterHeader(k) + nodes + [ClusterClose];
      && (forall l :: l in r ==> !l.EdgeLine?)
      && (forall l :: l in r && l.Node? ==> l.color == GetNamespaceColor(modules, l.className) && l.className in names)
      && (forall x :: x in names ==> DrawsNode(r, modules, x))
  {
    var head := ClusterHeader(k);
    var r := head + nodes + [ClusterClose];
    forall l | l in r
      ensures !l.EdgeLine?
      ensures l.Node? ==> l.color == GetNamespaceColor(modules, l.className) && l.className in names
    {
      if l in nodes {
        var j :| 0 <= j < |nodes| && nodes[j] == l;
      } else {
        assert l in head || l == ClusterClose;
      }
    }
    forall x | x in names ensures DrawsNode(r, modules, x) {
      var j :| 0 <= j < |names| && names[j] == x;
      assert nodes[j] in r;
    }
  }

  /** Every class of a block is drawn between the block's opening line and its closing brace. */
  lemma BlockPlacesItsNodes(modules: seq<string>, k: string, names: seq<string>, nodes: seq<Line>)
    requires NodesOf(modules, names, nodes)
    ensures forall x :: x in names ==> InClusterOf(ClusterHeader(k) + nodes + [ClusterClose], k, x)
  {
    var head := ClusterHeader(k);
    var r := head + nodes + [ClusterClose];
    forall x | x in names ensures InClusterOf(r, k, x) {
      var idx :| 0 <= idx < |names| && names[idx] == x;
      var j := |head| + idx;
      assert r[0] == ClusterOpening(k) && r[j] == nodes[idx];
      forall n | 0 < n < j ensures r[n] != ClusterClose {
        if n < |head| {
          assert r[n] == head[n] && head[n] in head;
        } else {
          assert r[n] == nodes[n - |head|];
        }
      }
      assert PlacedAt(r, k, x, 0, j);
    }
  }

  /** The cluster blocks, in the order the clusters are enumerated. */
  function ClusterLines(modules: seq<string>, clusters: ClassMessages): (r: Result<seq<Line>, string>)
    ensures r.Success? <==> ClustersDotted(clusters)
    ensures r.Success? ==> forall l :: l in r.value ==> !l.EdgeLine?
    ensures r.Success? ==> forall l :: l in r.value && l.Node? ==>
      l.color == GetNamespaceColor(modules, l.className) && InSomeCluster(clusters, l.className)
    ensures r.Success? ==> forall x :: InSomeCluster(clusters, x) ==> DrawsNode(r.value, modules, x)
    ensures r.Success? ==> forall i, x :: 0 <= i < |clusters| && x in clusters[i].1 ==> InClusterOf(r.value, clusters[i].0, x)
    decreases |clusters|
  {
    if clusters == [] then Success([])
    else
      ClustersDottedCons(clusters);
      var block := ClusterBlock(modules, clusters[0].0, clusters[0].1);
      var more := ClusterLines(modules, clusters[1..]);
      if block.Failure? then Failure(block.error)
      else if more.Failure? then Failure(more.error)
      else
        forall x | x in clusters[0].1 || InSomeCluster(clusters[1..], x) ensures InSomeCluster(clusters, x) {
          InSomeClusterCons(clusters, x);
        }
        JoinedBlocksDraw(modules, clusters, block.value, more.value);
        JoinedBlocksPlace(clusters, block.value, more.value);
        Success(block.value + more.value)
  }

  /** The first cluster's block followed by the others' draws every class of every cluster. */
  lemma JoinedBlocksDraw(modules: seq<string>, clusters: ClassMessages, block: seq<Line>, more: seq<Line>)
    requires clusters != []
    requires forall x :: x in clusters[0].1 ==> DrawsNode(block, modules, x)
    requires forall x :: InSomeCluster(clusters[1..], x) ==> DrawsNode(more, modules, x)
    ensures forall x :: InSomeCluster(clusters, x) ==> DrawsNode(block + more, modules, x)
  {
    forall x | InSomeCluster(clusters, x) ensures DrawsNode(block + more, modules, x) {
      InSomeClusterCons(clusters, x);
      DrawsNodeConcat(block, more, modules, x);
    }
  }

  /** The first cluster's block followed by the others' places every class inside its own cluster's block. */
  lemma JoinedBlocksPlace(clusters: ClassMessages, block: seq<Line>, more: seq<Line>)
    requires clusters != []
    requires forall x :: x in clusters[0].1 ==> InClusterOf(block, clusters[0].0, x)
    requires forall i, x :: 0 <= i < |clusters[1..]| && x in clusters[1..][i].1 ==> InClusterOf(more, clusters[1..][i].0, x)
    ensures forall i, x :: 0 <= i < |clusters| && x in clusters[i].1 ==> InClusterOf(block + more, clusters[i].0, x)
  {
    forall i, x | 0 <= i < |clusters| && x in clusters[i].1
      ensures InClusterOf(block + more, clusters[i].0, x)
    {
      if i == 0 {
        InClusterOfFramed([], block, more, clusters[0].0, x);
        assert [] + block + more == block + more;
      } else {
        assert clusters[1..][i - 1] == clusters[i];
        InClusterOfFramed(block, more, [], clusters[i].0, x);
        assert block + more + [] == block + more;
      }
    }
  }

  /** The edge statement of one match, labelled with the message's short name. */
  function EdgeLineOf(t: Triple): (r: Result<Line, string>)
    ensures r.Success? <==> '.' in t.message
    ensures r.Success? ==> r.value.EdgeLine? && r.value.producer == t.producer && r.value.consumer == t.consumer
    ensures r.Success? ==> IsLastSegment(t.message, r.value.labelText)
  {
    var parts := SplitFullClassName(t.message);
    if parts.Failure? then Failure(parts.error)
    else
      SplitParts(t.message);
      Success(EdgeLine(t.producer, t.consumer, parts.value.className))
  }

  /** Every message of the matches has a dot in its name. */
  predicate MessagesDotted(triples: seq<Triple>) {
    forall t :: t in triples ==> '.' in t.message
  }

  /** The edge statements, one per match, in order. */
  function EdgeLines(triples: seq<Triple>): (r: Result<seq<Line>, string>)
    ensures r.Success? <==> MessagesDotted(triples)
    ensures r.Success? ==> |r.value| == |triples|
    decreases |triples|
  {
    if triples == [] then Success([])
    else
      assert forall t :: t in triples ==> t == triples[0] || t in triples[1..];
      var head := EdgeLineOf(triples[0]);
      var tail := EdgeLines(triples[1..]);
      if head.Failure? then Failure(head.error)
      else if tail.Failure? then Failure(tail.error)
      else Success([head.value] + tail.value)
  }

  /** The `i`-th edge statement joins the classes of the `i`-th match and carries its message's short name. */
  lemma {:induction false} EdgeLineAt(triples: seq<Triple>, i: nat)
    requires EdgeLines(triples).Success? && i < |triples|
    ensures var l := EdgeLines(triples).value[i];
      && l.EdgeLine?
      && l.producer == triples[i].producer
      && l.consumer == triples[i].consumer
      && IsLastSegment(triples[i].message, l.labelText)
    decreases i
  {
    assert forall t :: t in triples[1..] ==> t in triples;
    var head := EdgeLineOf(triples[0]);
    var tail := EdgeLines(triples[1..]);
    assert head.Success? && tail.Success?;
    assert EdgeLines(triples).value == [head.value] + tail.value;
    if i > 0 {
      EdgeLineAt(triples[1..], i - 1);
      assert triples[1..][i - 1] == triples[i];
    }
  }

  /**
   * `GenerateUmlStateDiagram`: the header, the cluster blocks, an empty
   * line, the edge statements and the closing brace. The first name
   * without a dot, in that order, makes it throw.
   */
  function GenerateUmlStateDiagram(modules: seq<string>, clusters: ClassMessages, triples: seq<Triple>): Result<seq<Line>, string> {
    var clusterLines := ClusterLines(modules, clusters);
    var edgeLines := EdgeLines(triples);
    if clusterLines.Failure? then Failure(clusterLines.error)
    else if edgeLines.Failure? then Failure(edgeLines.error)
    else Success(Header + clusterLines.value + [Text("")] + edgeLines.value + [Footer])
  }

  /**
   * `Generate`: the module list from the keys of both dictionaries, the
   * clusters and matches of the collection loop, and the DOT lines built
   * from them.
   */
  function Generate(producers: ClassMessages, consumers: ClassMessages): Result<seq<Line>, string> {
    GenerateUmlStateDiagram(ModuleList(producers, consumers), Clusters(Additions(producers, consumers)), Triples(producers, consumers))
  }

  /** The edge statements among `lines`, in order. */
  function EdgeStatements(lines: seq<Line>): (r: seq<Line>)
    ensures forall l :: l in r ==> l.EdgeLine?
    decreases |lines|
  {
    if lines == [] then []
    else
      var last := lines[|lines| - 1];
      EdgeStatements(lines[..|lines| - 1]) + (if last.EdgeLine? then [last] else [])
  }

  lemma {:induction false} EdgeStatementsConcat(a: seq<Line>, b: seq<Line>)
    ensures EdgeStatements(a + b) == EdgeStatements(a) + EdgeStatements(b)
    decreases |b|
  {
    if b == [] {
      assert a + b == a;
    } else {
      var front, last := b[..|b| - 1], b[|b| - 1];
      var tail := if last.EdgeLine? then [last] else [];
      EdgeStatementsConcat(a, front);
      assert (a + b)[..|a + b| - 1] == a + front;
      assert (a + b)[|a + b| - 1] == last;
      assert EdgeStatements(a + b) == EdgeStatements(a + front) + tail;
      assert EdgeStatements(b) == EdgeStatements(front) + tail;
    }
  }

  lemma {:induction false} EdgeStatementsOfNone(lines: seq<Line>)
    requires forall l :: l in lines ==> !l.EdgeLine?
    ensures EdgeStatements(lines) == []
    decreases |lines|
  {
    if lines != [] {
      var front, last := lines[..|lines| - 1], lines[|lines| - 1];
      assert forall l :: l in front ==> l in lines;
      EdgeStatementsOfNone(front);
      assert last in lines;
    }
  }

  lemma {:induction false} EdgeStatementsOfAll(lines: seq<Line>)
    requires forall j :: 0 <= j < |lines| ==> lines[j].EdgeLine?
    ensures EdgeStatements(lines) == lines
    decreases |lines|
  {
    if lines != [] {
      var front, last := lines[..|lines| - 1], lines[|lines| - 1];
      assert forall j :: 0 <= j < |front| ==> front[j] == lines[j];
      EdgeStatementsOfAll(front);
      assert last.EdgeLine?;
      assert EdgeStatements(lines) == EdgeStatements(front) + [last];
      assert lines == front + [last];
    }
  }

  /**
   * Framing cluster lines without edge statements and a list of edge
   * statements: the result's edge statements are that list, and its nodes
   * come from the cluster lines.
   */
  lemma AssembledParts(clusterLines: seq<Line>, edgeLines: seq<Line>)
    requires forall l :: l in clusterLines ==> !l.EdgeLine?
    requires forall j :: 0 <= j < |edgeLines| ==> edgeLines[j].EdgeLine?
    ensures var r := Header + clusterLines + [Text("")] + edgeLines + [Footer];
      && EdgeStatements(r) == edgeLines
      && forall l :: l in r && l.Node? ==> l in clusterLines
  {
    var prefix := Header + clusterLines + [Text("")];
    forall l | l in prefix ensures !l.EdgeLine? && (l.Node? ==> l in clusterLines) {
      if l !in clusterLines {
        HeaderIsText(l);
      }
    }
    EdgesBetween(prefix, edgeLines, [Footer]);
    var r := prefix + edgeLines + [Footer];
    forall l | l in r && l.Node? ensures l in clusterLines {
      assert l in prefix || l in edgeLines || l == Footer;
    }
  }

  /** Edge statements framed by lines without any keep their order and are the only ones. */
  lemma EdgesBetween(prefix: seq<Line>, edgeLines: seq<Line>, suffix: seq<Line>)
    requires forall l :: l in prefix ==> !l.EdgeLine?
    requires forall j :: 0 <= j < |edgeLines| ==> edgeLines[j].EdgeLine?
    requires forall l :: l in suffix ==> !l.EdgeLine?
    ensures EdgeStatements(prefix + edgeLines + suffix) == edgeLines
  {
    var front := prefix + edgeLines;
    EdgeStatementsOfAll(edgeLines);
    EdgeStatementsOfNone(prefix);
    EdgeStatementsConcat(prefix, edgeLines);
    assert EdgeStatements(front) == edgeLines;
    EdgeStatementsOfNone(suffix);
    EdgeStatementsConcat(front, suffix);
  }


  /**
   * The diagram's edge statements are exactly the edge lines of the
   * matches, and its nodes all come from the cluster blocks.
   */
  lemma DiagramParts(modules: seq<string>, clusters: ClassMessages, triples: seq<Triple>)
    ensures var r := GenerateUmlStateDiagram(modules, clusters, triples);
      r.Success? <==> ClusterLines(modules, clusters).Success? && EdgeLines(triples).Success?
    ensures var r := GenerateUmlStateDiagram(modules, clusters, triples);
      r.Success? ==> EdgeStatements(r.value) == EdgeLines(triples).value
    ensures var r := GenerateUmlStateDiagram(modules, clusters, triples);
      r.Success? ==> forall l :: l in r.value && l.Node? ==> l in ClusterLines(modules, clusters).value
    ensures var r := GenerateUmlStateDiagram(modules, clusters, triples);
      r.Success? ==> forall l :: l in ClusterLines(modules, clusters).value ==> l in r.value
  {
    var cl := ClusterLines(modules, clusters);
    var el := EdgeLines(triples);
    if cl.Success? && el.Success? {
      forall j | 0 <= j < |el.value| ensures el.value[j].EdgeLine? {
        EdgeLineAt(triples, j);
      }
      AssembledParts(cl.value, el.value);
      MiddleKept(Header, cl.value, [Text("")], el.value, Footer);
    }
  }



  /** Lines `h`, then three groups, then `f`: every line of the first group is kept. */
  lemma MiddleKept<L>(h: seq<L>, a: seq<L>, b: seq<L>, c: seq<L>, f: L)
    ensures forall l :: l in a ==> l in h + a + b + c + [f]
  {
    var r := h + a + b + c + [f];
    assert r == (h + a) + (b + c + [f]);
  }

  /** Lines `h`, then three groups, then `f`: `h` is the prefix and `f` the last line. */
  lemma Framed<L>(h: seq<L>, a: seq<L>, b: seq<L>, c: seq<L>, f: L)
    ensures var r := h + a + b + c + [f];
      |r| > |h| && r[..|h|] == h && r[|r| - 1] == f
  {
    var r := h + a + b + c + [f];
    assert r == h + (a + b + c + [f]);
  }

  /** The output opens with the `digraph G {` header lines and ends with the closing brace. */
  lemma GenerateIsFramed(producers: ClassMessages, consumers: ClassMessages)
    ensures var r := Generate(producers, consumers);
      r.Success? ==> |r.value| > |Header| && r.value[..|Header|] == Header && r.value[|r.value| - 1] == Footer
  {
    var modules := ModuleList(producers, consumers);
    var clusters := Clusters(Additions(producers, consumers));
    var triples := Triples(producers, consumers);
    var cl := ClusterLines(modules, clusters);
    var el := EdgeLines(triples);
    if cl.Success? && el.Success? {
      Framed(Header, cl.value, [Text("")], el.value, Footer);
    }
  }

  /**
   * The edge statements are the matches in order: one per producer, sent
   * message and consuming class, joining the two classes and labelled with
   * the text after the message's last dot.
   */
  lemma GenerateEmitsOneEdgePerMatch(producers: ClassMessages, consumers: ClassMessages)
    ensures var r := Generate(producers, consumers);
      var triples := Triples(producers, consumers);
      r.Success? ==>
        var edges := EdgeStatements(r.value);
        && |edges| == |triples|
        && forall i :: 0 <= i < |triples| ==>
          && edges[i].producer == triples[i].producer
          && edges[i].consumer == triples[i].consumer
          && IsLastSegment(triples[i].message, edges[i].labelText)
  {
    var triples := Triples(producers, consumers);
    DiagramParts(ModuleList(producers, consumers), Clusters(Additions(producers, consumers)), triples);
    if Generate(producers, consumers).Success? {
      forall i | 0 <= i < |triples| ensures
        var l := EdgeLines(triples).value[i];
        && l.producer == triples[i].producer
        && l.consumer == triples[i].consumer
        && IsLastSegment(triples[i].message, l.labelText)
      {
        EdgeLineAt(triples, i);
      }
    }
  }

  /** A class of a match is a key of one of the two dictionaries. */
  lemma EndpointIsKey(producers: ClassMessages, consumers: ClassMessages, x: string)
    requires IsEndpoint(Triples(producers, consumers), x)
    ensures x in Keys(producers) || x in Keys(consumers)
  {
    var t :| t in Triples(producers, consumers) && (t.producer == x || t.consumer == x);
    TriplesAreMatches(producers, consumers, t);
    if t.producer == x {
      ListsKey(producers, x, t.message);
    } else {
      ListsKey(consumers, x, t.message);
    }
  }

  /** Every node is a dictionary key, so its module is listed and it never gets the red fallback. */
  lemma GenerateNodesAreNeverRed(producers: ClassMessages, consumers: ClassMessages)
    ensures var r := Generate(producers, consumers);
      r.Success? ==> forall l :: l in r.value && l.Node? ==> l.color != Red
  {
    var modules := ModuleList(producers, consumers);
    var clusters := Clusters(Additions(producers, consumers));
    var triples := Triples(producers, consumers);
    DiagramParts(modules, clusters, triples);
    var r := GenerateUmlStateDiagram(modules, clusters, triples);
    if r.Success? {
      forall l | l in r.value && l.Node? ensures l.color != Red {
        ClusteredClassesAreEndpoints(producers, consumers, l.className);
        EndpointIsKey(producers, consumers, l.className);
      }
    }
  }

  /**
   * The nodes drawn are exactly the producers and consumers of the matches:
   * each of them is drawn in its namespace's colour, and every node line is
   * one of them in that colour.
   */
  lemma GenerateDrawsExactlyTheEndpoints(producers: ClassMessages, consumers: ClassMessages)
    ensures var r := Generate(producers, consumers);
      var modules := ModuleList(producers, consumers);
      var triples := Triples(producers, consumers);
      r.Success? ==>
        && (forall x :: IsEndpoint(triples, x) ==> DrawsNode(r.value, modules, x))
        && (forall l :: l in r.value && l.Node? ==>
              IsEndpoint(triples, l.className) && l.color == GetNamespaceColor(modules, l.className))
  {
    var modules := ModuleList(producers, consumers);
    var clusters := Clusters(Additions(producers, consumers));
    var triples := Triples(producers, consumers);
    DiagramParts(modules, clusters, triples);
    var r := GenerateUmlStateDiagram(modules, clusters, triples);
    if r.Success? {
      var cl := ClusterLines(modules, clusters).value;
      forall x | IsEndpoint(triples, x) ensures DrawsNode(r.value, modules, x) {
        ClusteredClassesAreEndpoints(producers, consumers, x);
        var l :| l in cl && l.Node? && l.className == x && l.color == GetNamespaceColor(modules, x);
        assert l in r.value;
      }
      forall l | l in r.value && l.Node? ensures IsEndpoint(triples, l.className) {
        ClusteredClassesAreEndpoints(producers, consumers, l.className);
      }
    }
  }

  /** Lines placed in a block stay placed once framed by a header, two groups and a last line. */
  lemma InClusterOfInDiagram(h: seq<Line>, a: seq<Line>, b: seq<Line>, c: seq<Line>, f: Line, k: string, x: string)
    requires InClusterOf(a, k, x)
    ensures InClusterOf(h + a + b + c + [f], k, x)
  {
    InClusterOfFramed(h, a, b + c + [f], k, x);
    assert h + a + b + c + [f] == h + a + (b + c + [f]);
  }

  /**
   * Every producer and consumer of a match is drawn inside the
   * `subgraph "cluster_<m>"` block of its own module `m`.
   */
  lemma GenerateClustersEndpointsByModule(producers: ClassMessages, consumers: ClassMessages)
    ensures var r := Generate(producers, consumers);
      r.Success? ==> forall x :: IsEndpoint(Triples(producers, consumers), x) ==> InClusterOf(r.value, GetModuleName(x), x)
  {
    var modules := ModuleList(producers, consumers);
    var clusters := Clusters(Additions(producers, consumers));
    var triples := Triples(producers, consumers);
    var cl := ClusterLines(modules, clusters);
    var el := EdgeLines(triples);
    if cl.Success? && el.Success? {
      var r := Header + cl.value + [Text("")] + el.value + [Footer];
      assert GenerateUmlStateDiagram(modules, clusters, triples) == Success(r);
      forall x | IsEndpoint(triples, x) ensures InClusterOf(r, GetModuleName(x), x) {
        EndpointsAreClusteredByModule(producers, consumers, x);
        var i := GetIsEntry(clusters, GetModuleName(x));
        InClusterOfInDiagram(Header, cl.value, [Text("")], el.value, Footer, GetModuleName(x), x);
      }
    }
  }

  /**
   * `Generate` returns exactly when every class and message of every match
   * has a dot in its name; otherwise `SplitFullClassName` throws.
   */
  lemma GenerateSucceedsIffNamesHaveDots(producers: ClassMessages, consumers: ClassMessages)
    ensures Generate(producers, consumers).Success? <==>
      forall t :: t in Triples(producers, consumers) ==> '.' in t.producer && '.' in t.consumer && '.' in t.message
  {
    var modules := ModuleList(producers, consumers);
    var additions := Additions(producers, consumers);
    var clusters := Clusters(additions);
    var triples := Triples(producers, consumers);
    DiagramParts(modules, clusters, triples);
    ClustersDottedIffAdditionsDotted(additions);
    AdditionsDottedIffEndpointsDotted(producers, consumers);
  }

  lemma ClustersDottedIffAdditionsDotted(additions: seq<string>)
    ensures ClustersDotted(Clusters(additions)) <==> AllDotted(additions)
  {
    var clusters := Clusters(additions);
    if ClustersDotted(clusters) {
      forall x | x in additions ensures '.' in x {
        ClusterMembersAreAdditions(additions, x);
        var i :| 0 <= i < |clusters| && x in clusters[i].1;
      }
    }
    if AllDotted(additions) {
      forall i | 0 <= i < |clusters| ensures AllDotted(clusters[i].1) {
        forall x | x in clusters[i].1 ensures '.' in x {
          ClusterMembersAreAdditions(additions, x);
        }
      }
    }
  }

  lemma AdditionsDottedIffEndpointsDotted(producers: ClassMessages, consumers: ClassMessages)
    ensures AllDotted(Additions(producers, consumers)) <==>
      forall t :: t in Triples(producers, consumers) ==> '.' in t.producer && '.' in t.consumer
  {
    var additions := Additions(producers, consumers);
    var triples := Triples(producers, consumers);
    if AllDotted(additions) {
      forall t | t in triples ensures '.' in t.producer && '.' in t.consumer {
        AdditionsAreEndpoints(producers, consumers, t.producer);
        AdditionsAreEndpoints(producers, consumers, t.consumer);
      }
    }
    if forall t :: t in triples ==> '.' in t.producer && '.' in t.consumer {
      forall x | x in additions ensures '.' in x {
        AdditionsAreEndpoints(producers, consumers, x);
      }
    }
  }
}

=== FILE: extension_methods.dfy ===
/**
 * The append-if-absent list operations of ExtensionMethods.cs, and LINQ's
 * `Distinct`, which keeps the first occurrence of every element in order and
 * is exactly append-if-absent applied to every element of a list in turn.
 *
 * Elements are compared with Dafny's `==`; for the non-null, name-keyed
 * references this model stores in lists, that is the classes' `Equals`.
 */
module ExtensionMethods {

  predicate NoDuplicates<T(==)>(s: seq<T>) {
    forall i, j :: 0 <= i < j < |s| ==> s[i] != s[j]
  }

  /** Position of the first occurrence of `x` in `s`. */
  function FirstIndex<T(==)>(s: seq<T>, x: T): (i: nat)
    requires x in s
    ensures i < |s| && s[i] == x && x !in s[..i]
  {
    if s[0] == x then 0 else 1 + FirstIndex(s[1..], x)
  }

  /** `list.AddIfNotExist(item)`: appends `item` unless an equal element is already present. */
  function AddIfNotExist<T(==)>(list: seq<T>, item: T): (r: seq<T>)
    ensures item in list ==> r == list
    ensures list <= r && |r| <= |list| + 1
    ensures item in r
    ensures forall x :: x in r ==> x in list || x == item
    ensures NoDuplicates(list) ==> NoDuplicates(r)
  {
    if item in list then list else list + [item]
  }

  /** `list.AddRangeIfNotExist(items)`: `AddIfNotExist` for every item, in order. */
  function AddRangeIfNotExist<T(==)>(list: seq<T>, items: seq<T>): (r: seq<T>)
    ensures list <= r
    ensures forall x :: x in items ==> x in r
    ensures forall x :: x in r ==> x in list || x in items
    ensures NoDuplicates(list) ==> NoDuplicates(r)
    decreases |items|
  {
    if items == [] then list
    else AddIfNotExist(AddRangeIfNotExist(list, items[..|items| - 1]), items[|items| - 1])
  }

  /** LINQ `Distinct`: the elements of `s` without repetitions, first occurrences in order. */
  function Distinct<T(==)>(s: seq<T>): (r: seq<T>)
    ensures NoDuplicates(r)
    ensures forall x :: x in s ==> x in r
    ensures forall x :: x in r ==> x in s
  {
    AddRangeIfNotExist([], s)
  }

  /** Adding a range in two steps is adding the concatenated range. */
  lemma {:induction false} AddRangeConcat<T>(list: seq<T>, a: seq<T>, b: seq<T>)
    ensures AddRangeIfNotExist(AddRangeIfNotExist(list, a), b) == AddRangeIfNotExist(list, a + b)
    decreases |b|
  {
    if b == [] {
      assert a + b == a;
    } else {
      var n := |b|;
      assert (a + b)[..|a + b| - 1] == a + b[..n - 1];
      assert (a + b)[|a + b| - 1] == b[n - 1];
      AddRangeConcat(list, a, b[..n - 1]);
    }
  }

  /** A duplicate-free list is its own `Distinct`. */
  lemma {:induction false} DistinctOfDuplicateFree<T>(s: seq<T>)
    requires NoDuplicates(s)
    ensures Distinct(s) == s
    decreases |s|
  {
    if s != [] {
      var n := |s|;
      assert NoDuplicates(s[..n - 1]);
      DistinctOfDuplicateFree(s[..n - 1]);
      assert s[n - 1] !in s[..n - 1];
      assert s[..n - 1] + [s[n - 1]] == s;
    }
  }

  /** `Distinct` applied twice changes nothing. */
  lemma DistinctIdempotent<T>(s: seq<T>)
    ensures Distinct(Distinct(s)) == Distinct(s)
  {
    DistinctOfDuplicateFree(Distinct(s));
  }

  /** Adding a range to a duplicate-free list is `Distinct` of the concatenation. */
  lemma AddRangeIsDistinctOfConcat<T>(list: seq<T>, items: seq<T>)
    requires NoDuplicates(list)
    ensures AddRangeIfNotExist(list, items) == Distinct(list + items)
  {
    DistinctOfDuplicateFree(list);
    AddRangeConcat([], list, items);
  }

  /** Deduplicating a prefix first does not change the final `Distinct`. */
  lemma DistinctOfDistinctPrefix<T>(a: seq<T>, b: seq<T>)
    ensures Distinct(Distinct(a) + b) == Distinct(a + b)
  {
    AddRangeIsDistinctOfConcat(Distinct(a), b);
    AddRangeConcat([], a, b);
  }

  lemma FirstIndexOfPrefix<T>(s: seq<T>, t: seq<T>, x: T)
    requires x in s
    ensures FirstIndex(s + t, x) == FirstIndex(s, x)
  {
    var i := FirstIndex(s, x);
    assert (s + t)[i] == x;
  }

  /**
   * `Distinct` orders its result by first occurrence: an element placed
   * before another first occurs earlier in the input.
   */
  lemma {:induction false} DistinctKeepsFirstOccurrenceOrder<T>(s: seq<T>, i: nat, j: nat)
    requires i < j < |Distinct(s)|
    ensures FirstIndex(s, Distinct(s)[i]) < FirstIndex(s, Distinct(s)[j])
    decreases |s|
  {
    var n := |s|;
    var p := s[..n - 1];
    var d := Distinct(p);
    assert s == p + [s[n - 1]];
    assert Distinct(s) == AddIfNotExist(d, s[n - 1]);
    var r := Distinct(s);
    assert r[i] in d;
    FirstIndexOfPrefix(p, [s[n - 1]], r[i]);
    if j < |d| {
      assert r[j] == d[j];
      FirstIndexOfPrefix(p, [s[n - 1]], r[j]);
      DistinctKeepsFirstOccurrenceOrder(p, i, j);
    } else {
      assert r[j] == s[n - 1] && s[n - 1] !in p;
    }
  }

  /** LINQ `Union`: the distinct elements of `a`, then those of `b` not in `a`, first occurrences in order. */
  function Union<T(==)>(a: seq<T>, b: seq<T>): (r: seq<T>)
    ensures NoDuplicates(r)
    ensures forall x :: x in a ==> x in r
    ensures forall x :: x in b ==> x in r
    ensures forall x :: x in r ==> x in a || x in b
  {
    Distinct(a + b)
  }

  /** `Distinct` grows one element at a time, by `AddIfNotExist`. */
  lemma DistinctSnoc<T>(s: seq<T>, x: T)
    ensures Distinct(s + [x]) == AddIfNotExist(Distinct(s), x)
  {
    assert (s + [x])[..|s|] == s;
  }

  /** Two duplicate-free lists with no common element concatenate to a duplicate-free list. */
  lemma NoDuplicatesConcat<T>(a: seq<T>, b: seq<T>)
    requires NoDuplicates(a) && NoDuplicates(b)
    requires forall x :: x in a ==> x !in b
    ensures NoDuplicates(a + b)
  {
    forall i, j | 0 <= i < j < |a + b| ensures (a + b)[i] != (a + b)[j] {
      if j < |a| {
        assert (a + b)[i] == a[i] && (a + b)[j] == a[j];
      } else if i >= |a| {
        assert (a + b)[i] == b[i - |a|] && (a + b)[j] == b[j - |a|];
      } else {
        assert (a + b)[i] == a[i] && (a + b)[j] == b[j - |a|];
        assert a[i] in a && b[j - |a|] in b;
      }
    }
  }
}

=== FILE: graph.dfy ===
/**
 * The directed graph both message-flow graphs are: QuikGraph's
 * `AdjacencyGraph` with tagged edges, reduced to what the engine uses. A
 * graph is its vertices and its edges, each in insertion order, and the
 * flag fixed at construction that says whether parallel edges are allowed.
 * The out-edges of a vertex, kept per vertex by QuikGraph, are the edges
 * with that source in insertion order. Only that per-vertex order is
 * QuikGraph's: its `Edges` property lists the edges grouped by source
 * vertex, so the order of `edges` as a whole is not the order `Edges`
 * enumerates, and no property here depends on it.
 */
module FlowGraph {
  import opened ExtensionMethods

  /** `TaggedEdge<V, T>`. A copy with the same source, target and tag is the same value. */
  datatype Edge<V, T> = Edge(source: V, target: V, tag: T)

  datatype Graph<V, T> = Graph(vertices: seq<V>, edges: seq<Edge<V, T>>, allowParallelEdges: bool)

  /** `new AdjacencyGraph<V, Edge>(allowParallelEdges)`. */
  function EmptyGraph<V, T>(allowParallelEdges: bool): Graph<V, T> {
    Graph([], [], allowParallelEdges)
  }

  function VertexSet<V(==), T(==)>(g: Graph<V, T>): set<V> {
    set v | v in g.vertices
  }

  function Sources<V(==), T(==)>(edges: seq<Edge<V, T>>): set<V> {
    set e | e in edges :: e.source
  }

  function Endpoints<V(==), T(==)>(edges: seq<Edge<V, T>>): set<V> {
    (set e | e in edges :: e.source) + (set e | e in edges :: e.target)
  }

  /** No vertex is stored twice and no edge dangles. */
  ghost predicate WellFormed<V, T>(g: Graph<V, T>) {
    && NoDuplicates(g.vertices)
    && forall e :: e in g.edges ==> e.source in g.vertices && e.target in g.vertices
  }

  /** At most one edge per ordered pair of vertices, whatever the tags. */
  ghost predicate NoParallelEdges<V, T>(g: Graph<V, T>) {
    forall i, j :: 0 <= i < j < |g.edges| ==>
      g.edges[i].source != g.edges[j].source || g.edges[i].target != g.edges[j].target
  }

  /** `ContainsEdge(source, target)`: some edge runs from `source` to `target`. */
  predicate ContainsEdge<V(==), T(==)>(g: Graph<V, T>, source: V, target: V) {
    exists e :: e in g.edges && e.source == source && e.target == target
  }

  /** `AddVertex(v)`: adds the vertex unless it is already there. */
  function AddVertex<V(==), T>(g: Graph<V, T>, v: V): Graph<V, T> {
    g.(vertices := AddIfNotExist(g.vertices, v))
  }

  /**
   * `AddVerticesAndEdge(e)`: adds the missing endpoints, then the edge,
   * which `AddEdge` refuses when parallel edges are disallowed and an edge
   * already joins the same ordered pair.
   */
  function AddVerticesAndEdge<V(==), T(==)>(g: Graph<V, T>, e: Edge<V, T>): (r: Graph<V, T>)
    ensures r.allowParallelEdges == g.allowParallelEdges
    ensures r.edges == g.edges || r.edges == g.edges + [e]
    ensures g.allowParallelEdges ==> r.edges == g.edges + [e]
    ensures !g.allowParallelEdges ==> (r.edges == g.edges <==> ContainsEdge(g, e.source, e.target))
  {
    var withVertices := AddVertex(AddVertex(g, e.source), e.target);
    if !g.allowParallelEdges && ContainsEdge(g, e.source, e.target) then withVertices
    else withVertices.(edges := g.edges + [e])
  }

  /** `AddVerticesAndEdge` adds exactly the two endpoints as vertices and keeps the graph well formed. */
  lemma AddVerticesAndEdgeVertices<V, T>(g: Graph<V, T>, e: Edge<V, T>)
    ensures g.vertices <= AddVerticesAndEdge(g, e).vertices
    ensures VertexSet(AddVerticesAndEdge(g, e)) == VertexSet(g) + {e.source, e.target}
    ensures WellFormed(g) ==> WellFormed(AddVerticesAndEdge(g, e))
  {
  }

  /**
   * `AddVerticesAndEdge` leaves the pair joined, keeps every pair joined
   * before, and never joins a pair twice when parallel edges are disallowed.
   */
  lemma AddVerticesAndEdgeJoins<V, T>(g: Graph<V, T>, e: Edge<V, T>)
    ensures ContainsEdge(AddVerticesAndEdge(g, e), e.source, e.target)
    ensures forall a, b :: ContainsEdge(g, a, b) ==> ContainsEdge(AddVerticesAndEdge(g, e), a, b)
    ensures !g.allowParallelEdges && NoParallelEdges(g) ==> NoParallelEdges(AddVerticesAndEdge(g, e))
  {
    forall a, b | ContainsEdge(g, a, b) ensures ContainsEdge(AddVerticesAndEdge(g, e), a, b) {
      var f :| f in g.edges && f.source == a && f.target == b;
      assert f in AddVerticesAndEdge(g, e).edges;
    }
  }

  /** `AddVerticesAndEdge` for every edge of `es`, in order. */
  function AddEdges<V(==), T(==)>(g: Graph<V, T>, es: seq<Edge<V, T>>): (r: Graph<V, T>)
    ensures r.allowParallelEdges == g.allowParallelEdges
    decreases |es|
  {
    if es == [] then g else AddVerticesAndEdge(AddEdges(g, es[..|es| - 1]), es[|es| - 1])
  }

  lemma EndpointsSnoc<V, T>(es: seq<Edge<V, T>>, e: Edge<V, T>)
    ensures Endpoints(es + [e]) == Endpoints(es) + {e.source, e.target}
  {
    var l := Endpoints(es + [e]);
    var r := Endpoints(es) + {e.source, e.target};
    forall v | v in l ensures v in r {
      var f :| f in es + [e] && (f.source == v || f.target == v);
      if f != e {
        assert f in es;
      }
    }
    forall v | v in r ensures v in l {
      if v !in {e.source, e.target} {
        var f :| f in es && (f.source == v || f.target == v);
        assert f in es + [e];
      }
    }
  }

  lemma EndpointsOfLast<V, T>(es: seq<Edge<V, T>>)
    requires es != []
    ensures Endpoints(es) == Endpoints(es[..|es| - 1]) + {es[|es| - 1].source, es[|es| - 1].target}
  {
    assert es == es[..|es| - 1] + [es[|es| - 1]];
    EndpointsSnoc(es[..|es| - 1], es[|es| - 1]);
  }

  lemma UnionRegrouped<V>(all: set<V>, before: set<V>, start: set<V>, added: set<V>, allAdded: set<V>, last: set<V>)
    requires all == before + last && before == start + added && allAdded == added + last
    ensures all == start + allAdded
  {
  }

  /** Adding a sequence of edges adds exactly its endpoints as vertices. */
  lemma {:induction false} AddEdgesVertices<V, T>(g: Graph<V, T>, es: seq<Edge<V, T>>)
    ensures VertexSet(AddEdges(g, es)) == VertexSet(g) + Endpoints(es)
    decreases |es|
  {
    if es != [] {
      var front, last := es[..|es| - 1], es[|es| - 1];
      var h := AddEdges(g, front);
      AddEdgesVertices(g, front);
      AddVerticesAndEdgeVertices(h, last);
      EndpointsOfLast(es);
      UnionRegrouped(VertexSet(AddEdges(g, es)), VertexSet(h), VertexSet(g), Endpoints(front), Endpoints(es), {last.source, last.target});
    }
  }

  /** Adding a sequence of edges keeps a graph well formed. */
  lemma {:induction false} AddEdgesWellFormed<V, T>(g: Graph<V, T>, es: seq<Edge<V, T>>)
    requires WellFormed(g)
    ensures WellFormed(AddEdges(g, es))
    decreases |es|
  {
    if es != [] {
      AddEdgesWellFormed(g, es[..|es| - 1]);
      AddVerticesAndEdgeVertices(AddEdges(g, es[..|es| - 1]), es[|es| - 1]);
    }
  }

  /** Adding a sequence of edges stores no edge that is not in it. */
  lemma {:induction false} AddEdgesStoresOnlyGiven<V, T>(g: Graph<V, T>, es: seq<Edge<V, T>>)
    ensures forall e :: e in AddEdges(g, es).edges ==> e in g.edges || e in es
    decreases |es|
  {
    if es != [] {
      var front := es[..|es| - 1];
      AddEdgesStoresOnlyGiven(g, front);
      assert es == front + [es[|es| - 1]];
    }
  }

  /** After adding a sequence of edges, every pair it names is joined. */
  lemma {:induction false} AddEdgesJoinsEveryPair<V, T>(g: Graph<V, T>, es: seq<Edge<V, T>>)
    ensures forall e :: e in es ==> ContainsEdge(AddEdges(g, es), e.source, e.target)
    decreases |es|
  {
    if es != [] {
      var front := es[..|es| - 1];
      var last := es[|es| - 1];
      AddEdgesJoinsEveryPair(g, front);
      var r0 := AddEdges(g, front);
      var r := AddVerticesAndEdge(r0, last);
      AddVerticesAndEdgeJoins(r0, last);
      assert es == front + [last];
    }
  }

  /** With parallel edges disallowed, adding edges never joins a pair twice. */
  lemma {:induction false} AddEdgesNoParallel<V, T>(g: Graph<V, T>, es: seq<Edge<V, T>>)
    requires !g.allowParallelEdges && NoParallelEdges(g)
    ensures NoParallelEdges(AddEdges(g, es))
    decreases |es|
  {
    if es != [] {
      AddEdgesNoParallel(g, es[..|es| - 1]);
      AddVerticesAndEdgeJoins(AddEdges(g, es[..|es| - 1]), es[|es| - 1]);
    }
  }

  /** A graph whose vertices are the endpoints of its edges stays so while edges are added. */
  lemma {:induction false} AddEdgesKeepsEndpoints<V, T>(g: Graph<V, T>, es: seq<Edge<V, T>>)
    requires VertexSet(g) == Endpoints(g.edges)
    ensures VertexSet(AddEdges(g, es)) == Endpoints(AddEdges(g, es).edges)
    decreases |es|
  {
    if es != [] {
      var front := es[..|es| - 1];
      var last := es[|es| - 1];
      AddEdgesKeepsEndpoints(g, front);
      var r0 := AddEdges(g, front);
      AddVerticesAndEdgeVertices(r0, last);
      if AddVerticesAndEdge(r0, last).edges == r0.edges + [last] {
        EndpointsSnoc(r0.edges, last);
      } else {
        var f :| f in r0.edges && f.source == last.source && f.target == last.target;
        assert last.source in Endpoints(r0.edges) && last.target in Endpoints(r0.edges);
      }
    }
  }

  /**
   * Edges added to an empty graph that disallows parallel edges give a
   * well-formed graph joining each pair at most once, whose vertices are
   * exactly the endpoints of its edges.
   */
  lemma AddEdgesToEmpty<V, T>(es: seq<Edge<V, T>>)
    ensures var r := AddEdges(EmptyGraph(false), es);
      && !r.allowParallelEdges
      && NoParallelEdges(r)
      && WellFormed(r)
      && VertexSet(r) == Endpoints(r.edges)
  {
    var empty: Graph<V, T> := EmptyGraph(false);
    AddEdgesNoParallel(empty, es);
    AddEdgesWellFormed(empty, es);
    AddEdgesKeepsEndpoints(empty, es);
  }

  /** The edges of `edges` that leave `v`, in order. */
  function OutOf<V(==), T(==)>(edges: seq<Edge<V, T>>, v: V): (r: seq<Edge<V, T>>)
    ensures |r| <= |edges|
  {
    if edges == [] then []
    else OutOf(edges[..|edges| - 1], v) + (if edges[|edges| - 1].source == v then [edges[|edges| - 1]] else [])
  }

  /** `OutEdges(v)`, which QuikGraph refuses for a vertex not in the graph. */
  function OutEdges<V(==), T(==)>(g: Graph<V, T>, v: V): (r: seq<Edge<V, T>>)
    requires v in g.vertices
    ensures forall e :: e in r ==> e in g.edges && e.source == v
  {
    forall e | e in OutOf(g.edges, v) ensures e in g.edges && e.source == v {
      OutOfSelects(g.edges, v, e);
    }
    OutOf(g.edges, v)
  }

  /** `OutOf` keeps exactly the edges that leave `v`. */
  lemma {:induction false} OutOfSelects<V, T>(edges: seq<Edge<V, T>>, v: V, e: Edge<V, T>)
    ensures e in OutOf(edges, v) <==> e in edges && e.source == v
    decreases |edges|
  {
    if edges != [] {
      OutOfSelects(edges[..|edges| - 1], v, e);
      assert edges == edges[..|edges| - 1] + [edges[|edges| - 1]];
    }
  }

  lemma {:induction false} OutOfConcat<V, T>(a: seq<Edge<V, T>>, b: seq<Edge<V, T>>, v: V)
    ensures OutOf(a + b, v) == OutOf(a, v) + OutOf(b, v)
    decreases |b|
  {
    if b == [] {
      assert a + b == a;
    } else {
      assert (a + b)[..|a + b| - 1] == a + b[..|b| - 1];
      OutOfConcat(a, b[..|b| - 1], v);
    }
  }

  lemma OutOfEmptyIffNotSource<V, T>(edges: seq<Edge<V, T>>, v: V)
    ensures OutOf(edges, v) == [] <==> v !in Sources(edges)
  {
    if v in Sources(edges) {
      var e :| e in edges && e.source == v;
      OutOfSelects(edges, v, e);
    }
  }

  /** A walk along edges: every vertex is joined to the next by an edge. */
  ghost predicate IsPath<V, T>(g: Graph<V, T>, p: seq<V>) {
    |p| >= 1 && forall i :: 0 <= i < |p| - 1 ==> ContainsEdge(g, p[i], p[i + 1])
  }

  /** Without parallel edges, two joined vertices are joined by exactly one edge. */
  lemma OneEdgePerPair<V, T>(g: Graph<V, T>, source: V, target: V)
    requires NoParallelEdges(g) && ContainsEdge(g, source, target)
    ensures
      exists i :: 0 <= i < |g.edges| && g.edges[i].source == source && g.edges[i].target == target &&
        (forall j :: 0 <= j < |g.edges| && g.edges[j].source == source && g.edges[j].target == target ==> j == i)
  {
    var e :| e in g.edges && e.source == source && e.target == target;
    var i :| 0 <= i < |g.edges| && g.edges[i] == e;
  }

  /** `to` can be reached from `from` by following out-edges only, in zero or more steps. */
  ghost predicate Reachable<V(!new), T>(g: Graph<V, T>, from: V, to: V) {
    exists p :: IsPath(g, p) && p[0] == from && p[|p| - 1] == to
  }

  lemma ReachableFromItself<V(!new), T>(g: Graph<V, T>, v: V)
    ensures Reachable(g, v, v)
  {
    assert IsPath(g, [v]);
  }

  lemma ReachableTransitive<V(!new), T>(g: Graph<V, T>, a: V, b: V, c: V)
    requires Reachable(g, a, b) && Reachable(g, b, c)
    ensures Reachable(g, a, c)
  {
    var p :| IsPath(g, p) && p[0] == a && p[|p| - 1] == b;
    var q :| IsPath(g, q) && q[0] == b && q[|q| - 1] == c;
    var pq := p + q[1..];
    forall i | 0 <= i < |pq| - 1 ensures ContainsEdge(g, pq[i], pq[i + 1]) {
      if i < |p| - 1 {
        assert pq[i] == p[i] && pq[i + 1] == p[i + 1];
      } else {
        assert pq[i] == q[i - |p| + 1] && pq[i + 1] == q[i - |p| + 2];
      }
    }
    assert IsPath(g, pq);
  }

  lemma ReachableByEdge<V(!new), T>(g: Graph<V, T>, a: V, b: V)
    requires ContainsEdge(g, a, b)
    ensures Reachable(g, a, b)
  {
    assert IsPath(g, [a, b]);
  }
}

=== FILE: identity.dfy ===
/**
 * Identity rules of the handler, message and edge classes.
 *
 * The four name-keyed classes of the Model namespace
 * (MessageHandlerDefinition, MessageDefinition, MessageHandlerClass,
 * MessageClass) implement `Equals`, `GetHashCode` and a nested comparer with
 * the same code; they differ only in their non-identity properties. One
 * generic `Instance<F>` covers all four, `F` holding those properties. The
 * root-namespace MessageHandlerClass and MessageClass have the same comparer
 * but no `Equals` override.
 */
module Identity {
  import opened Wrappers

  /** A .NET `string` reference. */
  datatype NullableString = Null | Str(chars: string)

  /** A C# `int` hash code as its 32-bit pattern, so that `unchecked` `*` and `^` are `bv32` operations. */
  type HashCode = bv32

  /** `string.GetHashCode`: the runtime fixes no values, so every hash below takes it as a parameter. */
  type StringHash = string -> HashCode

  /** `FullClassName != null ? FullClassName.GetHashCode() : 0`. */
  function NameHash(name: NullableString, stringHash: StringHash): HashCode {
    match name
    case Null => 0
    case Str(chars) => stringHash(chars)
  }

  /**
   * A non-null reference to an instance of a name-keyed class. `address`
   * stands for the object's identity, `fullClassName` is the identity key and
   * `fields` holds the other properties. Two references are the same
   * reference (`ReferenceEquals`) exactly when these values are equal.
   */
  datatype Instance<F> = Instance(address: nat, fullClassName: NullableString, fields: F)

  /**
   * A value of static type `object`, seen from a class whose instances are
   * `T`: null, an instance of exactly that class, or an object of some other
   * runtime type. No class of the repository is subclassed, so `GetType()`
   * of a non-null `T` is always `T`.
   */
  datatype Object<T> = NullObject | SameClass(instance: T) | OtherClass(address: nat)

  datatype HandlerDefinitionFields = HandlerDefinitionFields(moduleName: NullableString, comment: NullableString)
  datatype HandlerClassFields = HandlerClassFields(moduleName: NullableString)
  datatype NoFields = NoFields

  type MessageHandlerDefinition = Instance<HandlerDefinitionFields>
  type MessageDefinition = Instance<NoFields>
  type MessageHandlerClass = Instance<HandlerClassFields>
  type MessageClass = Instance<NoFields>

  /** Both null, or both non-null with the same full class name. */
  ghost predicate SameName<F>(a: Option<Instance<F>>, b: Option<Instance<F>>) {
    (a.None? && b.None?) || (a.Some? && b.Some? && a.value.fullClassName == b.value.fullClassName)
  }

  /** `Equals(T other)` of IEquatable: null is never equal, the same reference always is, otherwise names decide. */
  function Equals<F(==)>(self: Instance<F>, other: Option<Instance<F>>): (r: bool)
    ensures r <==> other.Some? && other.value.fullClassName == self.fullClassName
  {
    if other.None? then false
    else if self == other.value then true
    else self.fullClassName == other.value.fullClassName
  }

  /** The `Equals(object obj)` override: also false for an object of another runtime type. */
  function EqualsObject<F(==)>(self: Instance<F>, obj: Object<Instance<F>>): (r: bool)
    ensures r <==> obj.SameClass? && obj.instance.fullClassName == self.fullClassName
  {
    match obj
    case NullObject => false
    case SameClass(other) => if other == self then true else Equals(self, Some(other))
    case OtherClass(_) => false
  }

  /** The `GetHashCode` override. */
  function GetHashCode<F>(self: Instance<F>, stringHash: StringHash): HashCode {
    NameHash(self.fullClassName, stringHash)
  }

  /**
   * The nested comparer's `Equals(x, y)`: the same reference (two nulls
   * included) is equal, one null is not, otherwise the runtime types and
   * then the names decide.
   */
  function ComparerEquals<F(==)>(x: Option<Instance<F>>, y: Option<Instance<F>>): (r: bool)
    ensures r <==> x == y || (x.Some? && y.Some? && x.value.fullClassName == y.value.fullClassName)
    ensures r <==> SameName(x, y)
  {
    if x == y then true
    else if x.None? then false
    else if y.None? then false
    else x.value.fullClassName == y.value.fullClassName
  }

  /** The nested comparer's `GetHashCode(obj)`; `obj` is dereferenced, so it is non-null here. */
  function ComparerGetHashCode<F>(obj: Instance<F>, stringHash: StringHash): HashCode {
    NameHash(obj.fullClassName, stringHash)
  }

  /** `object.Equals` as inherited by a class without an override: reference identity. */
  function InheritedEquals<T(==)>(self: T, obj: Object<T>): (r: bool)
    ensures r <==> obj.SameClass? && obj.instance == self
  {
    obj == SameClass(self)
  }

  /**
   * Reference equality is finer than the nested comparer: an object the
   * inherited `Equals` accepts is a same-class instance the comparer also
   * accepts, and every reference is equal to itself.
   */
  lemma InheritedEqualsRefinesComparer<F>(self: Instance<F>, obj: Object<Instance<F>>)
    ensures InheritedEquals(self, obj) ==> obj.SameClass? && ComparerEquals(Some(self), Some(obj.instance))
    ensures InheritedEquals(self, SameClass(self))
    ensures !InheritedEquals(self, NullObject)
  {
  }

  /** `Equals` is an equivalence on non-null references: reflexive, symmetric and transitive. */
  lemma EqualsIsEquivalence<F>(x: Instance<F>, y: Instance<F>, z: Instance<F>)
    ensures Equals(x, Some(x))
    ensures Equals(x, Some(y)) == Equals(y, Some(x))
    ensures Equals(x, Some(y)) && Equals(y, Some(z)) ==> Equals(x, Some(z))
  {
  }

  /** Equal instances hash equally, whatever `string.GetHashCode` returns. */
  lemma EqualInstancesHashEqually<F>(x: Instance<F>, y: Instance<F>, stringHash: StringHash)
    requires Equals(x, Some(y))
    ensures GetHashCode(x, stringHash) == GetHashCode(y, stringHash)
  {
  }

  /** The comparer agrees with `Equals` and `GetHashCode` on non-null arguments. */
  lemma ComparerAgreesWithEquals<F>(x: Instance<F>, y: Instance<F>, stringHash: StringHash)
    ensures ComparerEquals(Some(x), Some(y)) == Equals(x, Some(y))
    ensures ComparerEquals(Some(x), Some(y)) == EqualsObject(x, SameClass(y))
    ensures ComparerGetHashCode(x, stringHash) == GetHashCode(x, stringHash)
  {
  }

  /** Setting `Comment`, the one settable property of MessageHandlerDefinition, changes neither equality nor hash. */
  lemma CommentIsNotIdentity(x: MessageHandlerDefinition, comment: NullableString, other: Option<MessageHandlerDefinition>, stringHash: StringHash)
    ensures Equals(x.(fields := x.fields.(comment := comment)), other) == Equals(x, other)
    ensures GetHashCode(x.(fields := x.fields.(comment := comment)), stringHash) == GetHashCode(x, stringHash)
  {
  }

  /**
   * Without the comparer, two distinct root-namespace objects with the same
   * name are not equal: equality is by reference only. `F` is
   * `HandlerClassFields` for MessageHandlerClass and `NoFields` for
   * MessageClass.
   */
  lemma RootClassesCompareByReference<F>(name: string, fields: F)
    ensures var a := Instance(0, Str(name), fields);
            var b := Instance(1, Str(name), fields);
            ComparerEquals(Some(a), Some(b)) && !InheritedEquals(a, SameClass(b))
  {
  }

  /** An EdgeDefinition: a source, a target and a message, each a nullable Model-namespace reference. */
  datatype EdgeDefinition = EdgeDefinition(
    address: nat,
    source: Option<MessageHandlerClass>,
    target: Option<MessageHandlerClass>,
    edge: Option<MessageClass>)

  /** The static `object.Equals(a, b)`: the same reference, or both non-null and `a.Equals((object) b)`. */
  function StaticEquals<F(==)>(a: Option<Instance<F>>, b: Option<Instance<F>>): (r: bool)
    ensures r <==> SameName(a, b)
  {
    if a == b then true
    else if a.None? || b.None? then false
    else EqualsObject(a.value, SameClass(b.value))
  }

  /** `EdgeDefinition.Equals(EdgeDefinition other)`: component-wise, by the components' own `Equals`. */
  function EdgeEquals(self: EdgeDefinition, other: Option<EdgeDefinition>): (r: bool)
    ensures r <==> other.Some?
                   && SameName(self.source, other.value.source)
                   && SameName(self.target, other.value.target)
                   && SameName(self.edge, other.value.edge)
  {
    if other.None? then false
    else if self == other.value then true
    else StaticEquals(self.source, other.value.source)
         && StaticEquals(self.target, other.value.target)
         && StaticEquals(self.edge, other.value.edge)
  }

  /** The `Equals(object obj)` override of EdgeDefinition. */
  function EdgeEqualsObject(self: EdgeDefinition, obj: Object<EdgeDefinition>): (r: bool)
    ensures r <==> obj.SameClass? && EdgeEquals(self, Some(obj.instance))
    ensures obj.NullObject? || obj.OtherClass? ==> !r
  {
    match obj
    case NullObject => false
    case SameClass(other) => if other == self then true else EdgeEquals(self, Some(other))
    case OtherClass(_) => false
  }

  /** Hash of a nullable component: its `GetHashCode`, or 0 for null. */
  function ComponentHash<F>(component: Option<Instance<F>>, stringHash: StringHash): HashCode {
    match component
    case None => 0
    case Some(instance) => GetHashCode(instance, stringHash)
  }

  /** `EdgeDefinition.GetHashCode`: `((h(Source) * 397) ^ h(Target)) * 397 ^ h(Edge)`, wrapping at 32 bits. */
  function EdgeHashCode(self: EdgeDefinition, stringHash: StringHash): HashCode {
    CombineHashes(
      ComponentHash(self.source, stringHash),
      ComponentHash(self.target, stringHash),
      ComponentHash(self.edge, stringHash))
  }

  function CombineHashes(source: HashCode, target: HashCode, edge: HashCode): HashCode {
    var hash := source;
    var hash := (hash * 397) ^ target;
    (hash * 397) ^ edge
  }

  /** Equal edges hash equally. */
  lemma EqualEdgesHashEqually(x: EdgeDefinition, y: EdgeDefinition, stringHash: StringHash)
    requires EdgeEquals(x, Some(y))
    ensures EdgeHashCode(x, stringHash) == EdgeHashCode(y, stringHash)
  {
    assert ComponentHash(x.source, stringHash) == ComponentHash(y.source, stringHash);
    assert ComponentHash(x.target, stringHash) == ComponentHash(y.target, stringHash);
    assert ComponentHash(x.edge, stringHash) == ComponentHash(y.edge, stringHash);
  }
}

=== FILE: module_names.dfy ===
/**
 * Module names: the first three dot-separated segments of a full class
 * name, computed as `string.Join(".", fullClassName.Split('.').Take(3))`.
 * The converter and the DOT generator each carry an identical copy of this
 * function; it is defined once here.
 */
module ModuleNames {

  /** Number of '.' characters in `s`. */
  function DotCount(s: string): nat {
    if s == [] then 0 else (if s[0] == '.' then 1 else 0) + DotCount(s[1..])
  }

  /** `string.Join(".", parts)`. */
  function Join(parts: seq<string>): string {
    if parts == [] then ""
    else if |parts| == 1 then parts[0]
    else parts[0] + "." + Join(parts[1..])
  }

  /**
   * `s.Split('.')`: the maximal dot-free pieces of `s`, empty pieces
   * included, so there is always at least one.
   */
  function Split(s: string): (parts: seq<string>)
    ensures |parts| >= 1
    ensures forall i :: 0 <= i < |parts| ==> '.' !in parts[i]
    ensures Join(parts) == s
  {
    if |s| == 0 then [""]
    else
      var rest := Split(s[1..]);
      if s[0] == '.' then
        assert Join([""] + rest) == "" + "." + Join(rest) by {
          assert ([""] + rest)[1..] == rest;
        }
        [""] + rest
      else
        var parts := [[s[0]] + rest[0]] + rest[1..];
        assert s == [s[0]] + s[1..];
        if |rest| == 1 then parts
        else
          assert parts[1..] == rest[1..];
          parts
  }

  /** `parts.Take(n)`. */
  function Take(parts: seq<string>, n: nat): seq<string> {
    if |parts| <= n then parts else parts[..n]
  }

  /** `GetModuleName` of MessageFlowSymbolConverter and GraphvizDotDiagramGenerator. */
  function GetModuleName(fullClassName: string): string {
    Join(Take(Split(fullClassName), 3))
  }

  lemma {:induction false} DotCountOfDotFree(s: string)
    requires '.' !in s
    ensures DotCount(s) == 0
    decreases |s|
  {
    if s != [] {
      assert '.' !in s[1..];
      DotCountOfDotFree(s[1..]);
    }
  }

  lemma {:induction false} DotCountConcat(a: string, b: string)
    ensures DotCount(a + b) == DotCount(a) + DotCount(b)
    decreases |a|
  {
    if a != [] {
      assert (a + b)[1..] == a[1..] + b;
      DotCountConcat(a[1..], b);
    } else {
      assert a + b == b;
    }
  }

  /**
   * Joining the first `k` of several dot-free parts gives a prefix of
   * joining them all, with `k - 1` dots, followed by a dot when parts remain.
   */
  lemma {:induction false} JoinPrefix(parts: seq<string>, k: nat)
    requires 1 <= k <= |parts|
    requires forall i :: 0 <= i < |parts| ==> '.' !in parts[i]
    ensures Join(parts[..k]) <= Join(parts)
    ensures DotCount(Join(parts[..k])) == k - 1
    ensures k < |parts| ==> |Join(parts[..k])| < |Join(parts)|
    ensures k < |parts| ==> Join(parts)[|Join(parts[..k])|] == '.'
    decreases k
  {
    if k == 1 {
      assert parts[..1] == [parts[0]];
      DotCountOfDotFree(parts[0]);
    } else {
      var tail := parts[1..];
      assert tail[..k - 1] == parts[1..k];
      JoinPrefix(tail, k - 1);
      assert parts[..k][1..] == parts[1..k];
      DotCountOfDotFree(parts[0]);
      DotCountConcat(parts[0], ".");
      DotCountConcat(parts[0] + ".", Join(parts[1..k]));
      assert Join(parts[..k]) == parts[0] + "." + Join(tail[..k - 1]);
      assert Join(parts) == parts[0] + "." + Join(tail);
    }
  }

  /**
   * The module name is the longest prefix of the full name that has at most
   * two dots: the whole name when it has at most two dots, otherwise the
   * part before the third dot.
   */
  lemma ModuleNameIsPrefixBeforeThirdDot(fullClassName: string)
    ensures GetModuleName(fullClassName) <= fullClassName
    ensures DotCount(GetModuleName(fullClassName)) == if DotCount(fullClassName) <= 2 then DotCount(fullClassName) else 2
    ensures DotCount(fullClassName) <= 2 ==> GetModuleName(fullClassName) == fullClassName
    ensures DotCount(fullClassName) > 2 ==>
      |GetModuleName(fullClassName)| < |fullClassName| && fullClassName[|GetModuleName(fullClassName)|] == '.'
  {
    var parts := Split(fullClassName);
    var n := |parts|;
    JoinPrefix(parts, n);
    assert parts[..n] == parts;
    if n > 3 {
      JoinPrefix(parts, 3);
    }
  }

  /** Taking the module name of a module name changes nothing. */
  lemma GetModuleNameIdempotent(fullClassName: string)
    ensures GetModuleName(GetModuleName(fullClassName)) == GetModuleName(fullClassName)
  {
    ModuleNameIsPrefixBeforeThirdDot(fullClassName);
    ModuleNameIsPrefixBeforeThirdDot(GetModuleName(fullClassName));
  }
}

=== FILE: walker.dfy ===
/**
 * GraphWalkerAlgorithms: the cycle-safe outbound walk. From a start vertex
 * it copies, into a fresh graph, the out-edges of every vertex it reaches,
 * and skips a vertex once that vertex is the source of an edge already
 * copied.
 *
 * The recursion (`WalkTheGraphOutEdgesRecursively` with its `foreach` over
 * out-edges) is the pair `WalkFrom` / `WalkEdges`. It terminates because
 * each expansion makes one more original vertex the source of a copied
 * edge: the measure is the number of original vertices not yet expanded.
 */
module GraphWalker {
  import opened ExtensionMethods
  import opened FlowGraph

  /** How many vertices of the original graph are not yet the source of a copied edge. */
  function Unexpanded<V(==), T(==)>(g: Graph<V, T>, acc: Graph<V, T>): nat {
    |VertexSet(g) - Sources(acc.edges)|
  }

  /** The measure of `WalkEdges`: what remains once `v` itself counts as expanded. */
  function EdgesBudget<V(==), T(==)>(g: Graph<V, T>, v: V, acc: Graph<V, T>): nat
    requires v in g.vertices
  {
    if v in Sources(acc.edges) then Unexpanded(g, acc)
    else
      assert v in VertexSet(g) - Sources(acc.edges);
      Unexpanded(g, acc) - 1
  }

  /** Membership in the sources of a concatenation, one vertex at a time. */
  lemma SourcesConcatAt<V, T>(a: seq<Edge<V, T>>, b: seq<Edge<V, T>>, u: V)
    ensures u in Sources(a + b) <==> u in Sources(a) || u in Sources(b)
  {
    if u in Sources(a + b) {
      var f :| f in a + b && f.source == u;
    }
    if u in Sources(a) {
      var f :| f in a && f.source == u;
      assert f in a + b;
    }
    if u in Sources(b) {
      var f :| f in b && f.source == u;
      assert f in a + b;
    }
  }

  lemma SourcesConcat<V, T>(a: seq<Edge<V, T>>, b: seq<Edge<V, T>>)
    ensures Sources(a + b) == Sources(a) + Sources(b)
  {
    forall u ensures u in Sources(a + b) <==> u in Sources(a) + Sources(b) {
      SourcesConcatAt(a, b, u);
    }
  }

  lemma SourcesOfPrefix<V, T>(a: seq<Edge<V, T>>, b: seq<Edge<V, T>>)
    requires a <= b
    ensures Sources(a) <= Sources(b)
    ensures Sources(b) == Sources(a) + Sources(b[|a|..])
  {
    assert b == a + b[|a|..];
    SourcesConcat(a, b[|a|..]);
  }

  lemma SourcesOfOne<V, T>(e: Edge<V, T>)
    ensures Sources([e]) == {e.source}
  {
    assert e in [e];
  }

  lemma SubsetCardinality<X>(small: set<X>, big: set<X>)
    requires small <= big
    ensures |small| <= |big|
  {
    assert big == small + (big - small);
  }

  /** Expanding more vertices never increases the measure. */
  lemma UnexpandedMonotone<V, T>(g: Graph<V, T>, acc: Graph<V, T>, acc': Graph<V, T>)
    requires Sources(acc.edges) <= Sources(acc'.edges)
    ensures Unexpanded(g, acc') <= Unexpanded(g, acc)
  {
    SubsetCardinality(VertexSet(g) - Sources(acc'.edges), VertexSet(g) - Sources(acc.edges));
  }

  /** Copying one out-edge of `v` uses up exactly `v`'s share of the measure. */
  lemma UnexpandedAfterCopy<V, T>(g: Graph<V, T>, v: V, acc: Graph<V, T>, e: Edge<V, T>)
    requires v in g.vertices && e.source == v
    ensures Unexpanded(g, acc.(edges := acc.edges + [e])) == EdgesBudget(g, v, acc)
  {
    var was := Sources(acc.edges);
    var now := Sources(acc.edges + [e]);
    SourcesConcat(acc.edges, [e]);
    SourcesOfOne(e);
    assert now == was + {v};
    if v !in was {
      assert VertexSet(g) - now == (VertexSet(g) - was) - {v};
    } else {
      assert now == was;
    }
  }

  /**
   * `WalkTheGraphOutEdgesRecursively(original, v, generated)`: nothing to do
   * when `v` is already the source of a generated edge, otherwise every
   * out-edge of `v` in turn.
   */
  function WalkFrom<V(==), T(==)>(g: Graph<V, T>, v: V, acc: Graph<V, T>): (r: Graph<V, T>)
    requires WellFormed(g) && v in g.vertices && acc.allowParallelEdges
    ensures r.allowParallelEdges
    ensures acc.edges <= r.edges
    decreases Unexpanded(g, acc), 1, 0
  {
    if v in Sources(acc.edges) then acc
    else WalkEdges(g, v, OutEdges(g, v), acc)
  }

  /** The `foreach` over the out-edges `outs` of `v`: copy one edge, walk on from its target. */
  function WalkEdges<V(==), T(==)>(g: Graph<V, T>, v: V, outs: seq<Edge<V, T>>, acc: Graph<V, T>): (r: Graph<V, T>)
    requires WellFormed(g) && v in g.vertices && acc.allowParallelEdges
    requires forall e :: e in outs ==> e in g.edges && e.source == v
    ensures r.allowParallelEdges
    ensures acc.edges <= r.edges
    decreases EdgesBudget(g, v, acc), 2, |outs|
  {
    if outs == [] then acc
    else
      var e := outs[0];
      var acc1 := AddVerticesAndEdge(acc, e);
      UnexpandedAfterCopy(g, v, acc, e);
      var acc2 := WalkFrom(g, e.target, acc1);
      AfterFirstEdge(g, v, acc, e, acc2);
      WalkEdges(g, v, outs[1..], acc2)
  }

  /** Once the walk from the first copied edge's target returns, `v` is expanded and the measure has not grown. */
  lemma AfterFirstEdge<V, T>(g: Graph<V, T>, v: V, acc: Graph<V, T>, e: Edge<V, T>, acc2: Graph<V, T>)
    requires v in g.vertices && e.source == v
    requires acc.edges + [e] <= acc2.edges
    ensures v in Sources(acc2.edges)
    ensures EdgesBudget(g, v, acc2) <= EdgesBudget(g, v, acc)
  {
    var acc1 := acc.(edges := acc.edges + [e]);
    UnexpandedAfterCopy(g, v, acc, e);
    SourcesOfPrefix(acc1.edges, acc2.edges);
    UnexpandedMonotone(g, acc1, acc2);
    assert acc2.edges[|acc.edges|] == e;
  }

  /** `WalkOutEdgesFrom`: the walk into a fresh `MessageFlowGraph`, which allows parallel edges. */
  function WalkOutEdgesFrom<V(==), T(==)>(g: Graph<V, T>, start: V): Graph<V, T>
    requires WellFormed(g) && start in g.vertices
  {
    WalkFrom(g, start, EmptyGraph(true))
  }

  /**
   * Every source of `added`, apart from those in `skip`, was not yet
   * expanded in `before`, and `added` holds its whole out-edge list in the
   * original order.
   */
  ghost predicate FreshWholeLists<V, T>(g: Graph<V, T>, before: seq<Edge<V, T>>, added: seq<Edge<V, T>>, skip: set<V>) {
    forall u :: u in Sources(added) && u !in skip ==> u !in Sources(before) && OutOf(added, u) == OutOf(g.edges, u)
  }

  /** The out-edge bookkeeping of one step of `WalkEdges`: the first edge, then the walk from its target, then the rest. */
  lemma JoinOutLists<V, T>(g: Graph<V, T>, v: V, before: seq<Edge<V, T>>, e: Edge<V, T>,
                           added1: seq<Edge<V, T>>, added2: seq<Edge<V, T>>, rest: seq<Edge<V, T>>)
    requires e.source == v
    requires FreshWholeLists(g, before + [e], added1, {})
    requires OutOf(added2, v) == rest
    requires FreshWholeLists(g, before + [e] + added1, added2, {v})
    ensures OutOf([e] + (added1 + added2), v) == [e] + rest
    ensures FreshWholeLists(g, before, [e] + (added1 + added2), {v})
  {
    var all := [e] + (added1 + added2);
    OutOfFirstThenTwo(e, added1, added2, v);
    SourcesConcatAt(before, [e], v);
    OutOfEmptyIffNotSource(added1, v);
    forall u | u in Sources(all) && u != v
      ensures u !in Sources(before) && OutOf(all, u) == OutOf(g.edges, u)
    {
      OutOfFirstThenTwo(e, added1, added2, u);
      SourcesConcatAt([e], added1 + added2, u);
      SourcesConcatAt(added1, added2, u);
      SourcesConcatAt(before, [e], u);
      SourcesConcatAt(before + [e], added1, u);
      OutOfEmptyIffNotSource(added1, u);
      OutOfEmptyIffNotSource(added2, u);
    }
  }

  lemma OutOfFirstThenTwo<V, T>(e: Edge<V, T>, added1: seq<Edge<V, T>>, added2: seq<Edge<V, T>>, u: V)
    ensures Sources([e]) == {e.source}
    ensures OutOf([e] + (added1 + added2), u) == (if e.source == u then [e] else []) + (OutOf(added1, u) + OutOf(added2, u))
  {
    assert Sources([e]) == {e.source};
    OutOfConcat([e], added1 + added2, u);
    OutOfConcat(added1, added2, u);
    assert [e][..0] == [];
  }

  /** How the appended part of a three-stage walk splits: one edge, then what the inner walk added, then the rest. */
  lemma AddedInSteps<E>(before: seq<E>, e: E, mid: seq<E>, after: seq<E>)
    requires before + [e] <= mid <= after
    ensures mid == before + [e] + mid[|before| + 1..]
    ensures after[|before|..] == [e] + (mid[|before| + 1..] + after[|mid|..])
  {
  }

  lemma HeadThenTail<E>(s: seq<E>)
    requires s != []
    ensures s == [s[0]] + s[1..]
  {
  }

  /** The edges a walk appended to its accumulator. */
  function Added<V, T>(acc: Graph<V, T>, r: Graph<V, T>): seq<Edge<V, T>>
    requires acc.edges <= r.edges
  {
    r.edges[|acc.edges|..]
  }

  /**
   * A walk only expands vertices that were not expanded before, and an
   * expanded vertex gets its whole out-edge list, in the original order.
   */
  lemma {:induction false} WalkFromCopiesWholeOutLists<V, T>(g: Graph<V, T>, v: V, acc: Graph<V, T>)
    requires WellFormed(g) && v in g.vertices && acc.allowParallelEdges
    ensures FreshWholeLists(g, acc.edges, Added(acc, WalkFrom(g, v, acc)), {})
    decreases Unexpanded(g, acc), 1, 0
  {
    if v !in Sources(acc.edges) {
      WalkEdgesCopiesWholeOutLists(g, v, OutEdges(g, v), acc);
    }
  }

  /** Walking the out-edges `outs` of `v` copies exactly `outs` out of `v`, and whole lists out of fresh vertices. */
  lemma {:induction false} WalkEdgesCopiesWholeOutLists<V, T>(g: Graph<V, T>, v: V, outs: seq<Edge<V, T>>, acc: Graph<V, T>)
    requires WellFormed(g) && v in g.vertices && acc.allowParallelEdges
    requires forall e :: e in outs ==> e in g.edges && e.source == v
    ensures OutOf(Added(acc, WalkEdges(g, v, outs, acc)), v) == outs
    ensures FreshWholeLists(g, acc.edges, Added(acc, WalkEdges(g, v, outs, acc)), {v})
    decreases EdgesBudget(g, v, acc), 2, |outs|
  {
    if outs != [] {
      var e := outs[0];
      var acc1 := AddVerticesAndEdge(acc, e);
      UnexpandedAfterCopy(g, v, acc, e);
      var acc2 := WalkFrom(g, e.target, acc1);
      AfterFirstEdge(g, v, acc, e, acc2);
      var r := WalkEdges(g, v, outs[1..], acc2);
      WalkFromCopiesWholeOutLists(g, e.target, acc1);
      WalkEdgesCopiesWholeOutLists(g, v, outs[1..], acc2);
      AddedInSteps(acc.edges, e, acc2.edges, r.edges);
      HeadThenTail(outs);
      JoinOutLists(g, v, acc.edges, e, Added(acc1, acc2), Added(acc2, r), outs[1..]);
    }
  }

  /** Every source of `added` can be reached from `from`. */
  ghost predicate SourcesReachable<V(!new), T>(g: Graph<V, T>, from: V, added: seq<Edge<V, T>>) {
    forall u :: u in Sources(added) ==> Reachable(g, from, u)
  }

  lemma JoinReachable<V(!new), T>(g: Graph<V, T>, v: V, e: Edge<V, T>, added1: seq<Edge<V, T>>, added2: seq<Edge<V, T>>)
    requires e in g.edges && e.source == v
    requires SourcesReachable(g, e.target, added1) && SourcesReachable(g, v, added2)
    ensures SourcesReachable(g, v, [e] + (added1 + added2))
  {
    ReachableFromItself(g, v);
    ReachableByEdge(g, v, e.target);
    SourcesOfOne(e);
    forall u | u in Sources([e] + (added1 + added2)) ensures Reachable(g, v, u) {
      SourcesConcatAt([e], added1 + added2, u);
      SourcesConcatAt(added1, added2, u);
      if u in Sources(added1) {
        ReachableTransitive(g, v, e.target, u);
      }
    }
  }

  /** A walk from `v` expands only vertices reachable from `v`. */
  lemma {:induction false} WalkFromStaysReachable<V(!new), T>(g: Graph<V, T>, v: V, acc: Graph<V, T>)
    requires WellFormed(g) && v in g.vertices && acc.allowParallelEdges
    ensures SourcesReachable(g, v, Added(acc, WalkFrom(g, v, acc)))
    decreases Unexpanded(g, acc), 1, 0
  {
    if v !in Sources(acc.edges) {
      WalkEdgesStaysReachable(g, v, OutEdges(g, v), acc);
    }
  }

  lemma {:induction false} WalkEdgesStaysReachable<V(!new), T>(g: Graph<V, T>, v: V, outs: seq<Edge<V, T>>, acc: Graph<V, T>)
    requires WellFormed(g) && v in g.vertices && acc.allowParallelEdges
    requires forall e :: e in outs ==> e in g.edges && e.source == v
    ensures SourcesReachable(g, v, Added(acc, WalkEdges(g, v, outs, acc)))
    decreases EdgesBudget(g, v, acc), 2, |outs|
  {
    if outs != [] {
      var e := outs[0];
      var acc1 := AddVerticesAndEdge(acc, e);
      UnexpandedAfterCopy(g, v, acc, e);
      var acc2 := WalkFrom(g, e.target, acc1);
      AfterFirstEdge(g, v, acc, e, acc2);
      var r := WalkEdges(g, v, outs[1..], acc2);
      WalkFromStaysReachable(g, e.target, acc1);
      WalkEdgesStaysReachable(g, v, outs[1..], acc2);
      AddedInSteps(acc.edges, e, acc2.edges, r.edges);
      JoinReachable(g, v, e, Added(acc1, acc2), Added(acc2, r));
    }
  }

  /** `u` is expanded in `edges`, or has no out-edge to copy. */
  ghost predicate Settled<V, T>(g: Graph<V, T>, edges: seq<Edge<V, T>>, u: V) {
    u in Sources(edges) || OutOf(g.edges, u) == []
  }

  /** The target of every edge in `added` is settled in `edges`. */
  ghost predicate TargetsSettled<V, T>(g: Graph<V, T>, added: seq<Edge<V, T>>, edges: seq<Edge<V, T>>) {
    forall f :: f in added ==> Settled(g, edges, f.target)
  }

  lemma JoinSettled<V, T>(g: Graph<V, T>, e: Edge<V, T>, mid: seq<Edge<V, T>>, added1: seq<Edge<V, T>>,
                          added2: seq<Edge<V, T>>, after: seq<Edge<V, T>>)
    requires mid <= after
    requires Settled(g, mid, e.target) && TargetsSettled(g, added1, mid) && TargetsSettled(g, added2, after)
    ensures TargetsSettled(g, [e] + (added1 + added2), after)
  {
    SourcesOfPrefix(mid, after);
  }

  /** After a walk from `v`, `v` and the target of every copied edge are settled. */
  lemma {:induction false} WalkFromSettles<V, T>(g: Graph<V, T>, v: V, acc: Graph<V, T>)
    requires WellFormed(g) && v in g.vertices && acc.allowParallelEdges
    ensures var r := WalkFrom(g, v, acc);
      Settled(g, r.edges, v) && TargetsSettled(g, Added(acc, r), r.edges)
    decreases Unexpanded(g, acc), 1, 0
  {
    if v !in Sources(acc.edges) {
      WalkEdgesSettles(g, v, OutEdges(g, v), acc);
    }
  }

  lemma {:induction false} WalkEdgesSettles<V, T>(g: Graph<V, T>, v: V, outs: seq<Edge<V, T>>, acc: Graph<V, T>)
    requires WellFormed(g) && v in g.vertices && acc.allowParallelEdges
    requires forall e :: e in outs ==> e in g.edges && e.source == v
    ensures var r := WalkEdges(g, v, outs, acc);
      (outs != [] ==> v in Sources(r.edges)) && TargetsSettled(g, Added(acc, r), r.edges)
    decreases EdgesBudget(g, v, acc), 2, |outs|
  {
    if outs != [] {
      var e := outs[0];
      var acc1 := AddVerticesAndEdge(acc, e);
      UnexpandedAfterCopy(g, v, acc, e);
      var acc2 := WalkFrom(g, e.target, acc1);
      AfterFirstEdge(g, v, acc, e, acc2);
      var r := WalkEdges(g, v, outs[1..], acc2);
      WalkFromSettles(g, e.target, acc1);
      WalkEdgesSettles(g, v, outs[1..], acc2);
      AddedInSteps(acc.edges, e, acc2.edges, r.edges);
      SourcesOfPrefix(acc2.edges, r.edges);
      JoinSettled(g, e, acc2.edges, Added(acc1, acc2), Added(acc2, r), r.edges);
    }
  }

  /** The walk keeps the vertices exactly the endpoints of the edges, each stored once. */
  lemma {:induction false} WalkFromKeepsShape<V, T>(g: Graph<V, T>, v: V, acc: Graph<V, T>)
    requires WellFormed(g) && v in g.vertices && acc.allowParallelEdges
    requires WellFormed(acc) && VertexSet(acc) == Endpoints(acc.edges)
    ensures var r := WalkFrom(g, v, acc);
      WellFormed(r) && VertexSet(r) == Endpoints(r.edges)
    decreases Unexpanded(g, acc), 1, 0
  {
    if v !in Sources(acc.edges) {
      WalkEdgesKeepsShape(g, v, OutEdges(g, v), acc);
    }
  }

  lemma {:induction false} WalkEdgesKeepsShape<V, T>(g: Graph<V, T>, v: V, outs: seq<Edge<V, T>>, acc: Graph<V, T>)
    requires WellFormed(g) && v in g.vertices && acc.allowParallelEdges
    requires forall e :: e in outs ==> e in g.edges && e.source == v
    requires WellFormed(acc) && VertexSet(acc) == Endpoints(acc.edges)
    ensures var r := WalkEdges(g, v, outs, acc);
      WellFormed(r) && VertexSet(r) == Endpoints(r.edges)
    decreases EdgesBudget(g, v, acc), 2, |outs|
  {
    if outs != [] {
      var e := outs[0];
      var acc1 := AddVerticesAndEdge(acc, e);
      UnexpandedAfterCopy(g, v, acc, e);
      AddVerticesAndEdgeVertices(acc, e);
      EndpointsSnoc(acc.edges, e);
      var acc2 := WalkFrom(g, e.target, acc1);
      AfterFirstEdge(g, v, acc, e, acc2);
      WalkFromKeepsShape(g, e.target, acc1);
      WalkEdgesKeepsShape(g, v, outs[1..], acc2);
    }
  }

  /** Along a path of the original graph, settledness carries over from each vertex to the next. */
  lemma {:induction false} PathSettles<V(!new), T>(g: Graph<V, T>, edges: seq<Edge<V, T>>, p: seq<V>)
    requires IsPath(g, p) && Settled(g, edges, p[0])
    requires TargetsSettled(g, edges, edges) && FreshWholeLists(g, [], edges, {})
    ensures Settled(g, edges, p[|p| - 1])
    decreases |p|
  {
    if |p| > 1 {
      var q := p[..|p| - 1];
      assert IsPath(g, q) by {
        forall i | 0 <= i < |q| - 1 ensures ContainsEdge(g, q[i], q[i + 1]) {
          assert q[i] == p[i] && q[i + 1] == p[i + 1];
        }
      }
      PathSettles(g, edges, q);
      var a, b := p[|p| - 2], p[|p| - 1];
      assert ContainsEdge(g, a, b);
      var f :| f in g.edges && f.source == a && f.target == b;
      OutOfSelects(g.edges, a, f);
      assert a in Sources(edges);
      assert OutOf(edges, a) == OutOf(g.edges, a);
      OutOfSelects(edges, a, f);
      assert Settled(g, edges, f.target);
    }
  }

  /**
   * The walk's defining property: from `start`, the generated graph holds,
   * for every vertex reachable from `start`, exactly that vertex's
   * out-edge list in the original order, and nothing out of any other vertex.
   */
  lemma WalkCopiesExactlyReachableOutEdges<V(!new), T>(g: Graph<V, T>, start: V)
    requires WellFormed(g) && start in g.vertices
    ensures var r := WalkOutEdgesFrom(g, start);
      forall u :: OutOf(r.edges, u) == if Reachable(g, start, u) then OutOf(g.edges, u) else []
  {
    var acc := EmptyGraph(true);
    var r := WalkOutEdgesFrom(g, start);
    WalkFromCopiesWholeOutLists(g, start, acc);
    WalkFromStaysReachable(g, start, acc);
    WalkFromSettles(g, start, acc);
    assert Added(acc, r) == r.edges;
    forall u ensures OutOf(r.edges, u) == if Reachable(g, start, u) then OutOf(g.edges, u) else [] {
      OutOfEmptyIffNotSource(r.edges, u);
      if Reachable(g, start, u) {
        var p :| IsPath(g, p) && p[0] == start && p[|p| - 1] == u;
        PathSettles(g, r.edges, p);
      }
    }
  }

  /** Every generated edge is an original edge leaving a vertex reachable from the start. */
  lemma WalkCopiesOnlyReachableEdges<V(!new), T>(g: Graph<V, T>, start: V)
    requires WellFormed(g) && start in g.vertices
    ensures forall e :: e in WalkOutEdgesFrom(g, start).edges ==> e in g.edges && Reachable(g, start, e.source)
  {
    var r := WalkOutEdgesFrom(g, start);
    WalkCopiesExactlyReachableOutEdges(g, start);
    forall e | e in r.edges ensures e in g.edges && Reachable(g, start, e.source) {
      OutOfSelects(r.edges, e.source, e);
      OutOfSelects(g.edges, e.source, e);
    }
  }

  /** Every original edge leaving a vertex reachable from the start is generated. */
  lemma WalkCopiesEveryReachableEdge<V(!new), T>(g: Graph<V, T>, start: V)
    requires WellFormed(g) && start in g.vertices
    ensures forall e :: e in g.edges && Reachable(g, start, e.source) ==> e in WalkOutEdgesFrom(g, start).edges
  {
    var r := WalkOutEdgesFrom(g, start);
    WalkCopiesExactlyReachableOutEdges(g, start);
    forall e | e in g.edges && Reachable(g, start, e.source) ensures e in r.edges {
      OutOfSelects(r.edges, e.source, e);
      OutOfSelects(g.edges, e.source, e);
    }
  }

  /** How often `e` occurs is decided by the out-edge list of its source. */
  lemma {:induction false} CountInOutOf<V, T>(edges: seq<Edge<V, T>>, e: Edge<V, T>)
    ensures multiset(edges)[e] == multiset(OutOf(edges, e.source))[e]
    decreases |edges|
  {
    if edges != [] {
      var front, last := edges[..|edges| - 1], edges[|edges| - 1];
      CountInOutOf(front, e);
      assert edges == front + [last];
    }
  }

  /**
   * The cycle guard copies no edge twice: each original edge out of a
   * reachable vertex occurs in the generated graph exactly as often as in
   * the original, and every other edge not at all.
   */
  lemma WalkCopiesEachEdgeOnce<V(!new), T>(g: Graph<V, T>, start: V)
    requires WellFormed(g) && start in g.vertices
    ensures var r := WalkOutEdgesFrom(g, start);
      forall e :: multiset(r.edges)[e] == if Reachable(g, start, e.source) then multiset(g.edges)[e] else 0
  {
    var r := WalkOutEdgesFrom(g, start);
    WalkCopiesExactlyReachableOutEdges(g, start);
    forall e ensures multiset(r.edges)[e] == if Reachable(g, start, e.source) then multiset(g.edges)[e] else 0 {
      CountInOutOf(r.edges, e);
      CountInOutOf(g.edges, e);
    }
  }

  /**
   * The generated graph's vertices are exactly the endpoints of its edges,
   * each stored once; it is empty exactly when the start has no out-edge.
   */
  lemma WalkVerticesAreEndpoints<V(!new), T>(g: Graph<V, T>, start: V)
    requires WellFormed(g) && start in g.vertices
    ensures var r := WalkOutEdgesFrom(g, start);
      && r.allowParallelEdges
      && WellFormed(r)
      && VertexSet(r) == Endpoints(r.edges)
      && (r.edges == [] <==> OutOf(g.edges, start) == [])
  {
    var acc: Graph<V, T> := EmptyGraph(true);
    var r := WalkOutEdgesFrom(g, start);
    assert VertexSet(acc) == {} == Endpoints(acc.edges);
    WalkFromKeepsShape(g, start, acc);
    WalkCopiesExactlyReachableOutEdges(g, start);
    ReachableFromItself(g, start);
    if r.edges == [] {
      assert OutOf(r.edges, start) == [];
    }
  }
}

=== FILE: wrappers.dfy ===
/** Option and Result, the model's stand-ins for .NET null references and thrown exceptions. */
module Wrappers {

  /** A value that may be absent: a nullable reference, or a lookup that found nothing. */
  datatype Option<+T> = None | Some(value: T)

  /** The outcome of an operation that either returns a value or throws. */
  datatype Result<+T, +E> = Success(value: T) | Failure(error: E)
}
